=== FILE: README.md ===
# pki_cert_sync / pki_cert_strip in Dafny

This project models the two Puppet providers of the `pupmod-simp-pki`
module that manage certificate files.

- **pki_cert_sync** (`lib/puppet/provider/pki_cert_sync/sync.rb`) keeps a
  target directory in step with a source directory of PEM certificates.
  - `source` scans the source. It finds the certificates, builds the ordered
    file→link mapping `@to_link` (links are named `<subject hash>.<n>`), and
    stages the expected bundles `cacerts.pem` and `cacerts_no_headers.pem`
    as dot-files in the target.
  - `source_insync?` decides whether the target agrees with that mapping.
  - `source=` purges, touches a canary, creates directories, copies,
    links and removes bundles.
  - `files_different?` compares two files in 512-byte chunks.
  - `strip_x509_headers` keeps only the lines of PEM certificate blocks.
- **pki_cert_strip** (`lib/puppet/provider/pki_cert_strip/linux.rb`) keeps
  one target PEM file equal to the certificate blocks of a source file. It
  also checks the target's owner, group, mode and SELinux type.

The file system is an abstract map from relative path to
`File(bytes) | Dir | Symlink(target)` (module `FileTree`). `File.file?`,
`File.directory?` and `File.exist?` follow a symbolic link that the path
itself names, up to Linux's limit of 40 links; a link in an enclosing
directory of the path is not followed (see "## Left out"). A source or
target directory is given as a `FileTree.Root`: absent, absent together
with its parent directory, present but not a directory, or a directory
with its tree. Every operation is a pure
function over that map. An exception is a `Result` failure. For `source=`,
whose effects before an exception stay done, an exception is an `Outcome`
that holds the tree reached so far and the error that stopped the run.
Certificate parsing and subject hashing (OpenSSL) are a parameter
`string -> Option<nat>`, and the model formats the hash with `%08x`
itself. The account database is a parameter `string -> Option<int>`.

Modules:

- `Wrappers`: `Option` and `Result`.
- `Text`: the Ruby string operations the providers use. These are
  `split`, `join`, byte-order sorting, `to_i`, `sprintf("%08x")`,
  `include?` and `strip`.
- `FileTree`: the abstract file system.
- `Compare`: `files_different?`.
- `Strip`: both copies of `strip_x509_headers`.
- `HashIndex`: the buckets, the numbering and the ordered mapping of `source`.
- `Snapshot`: `source` of the directory provider.
- `SyncCheck`: `source_insync?` of the directory provider.
- `Converge`: `source=` of the directory provider.
- `CertStrip`: the single-file provider.

Paths below are relative to the repository root. `sync.rb` stands for
`lib/puppet/provider/pki_cert_sync/sync.rb` and `linux.rb` for
`lib/puppet/provider/pki_cert_strip/linux.rb`.

## Model

| member | source | states |
|---|---|---|
| `Compare.FilesDifferent` | lib/puppet/provider/pki_cert_sync/sync.rb:265-288 | The chunked comparison returns true exactly when a file is missing or the two byte strings differ. A missing file or a size mismatch gives true, and a file compared with itself gives false. |
| `Strip.ScanKeepsBlockLines` | lib/puppet/provider/pki_cert_sync/sync.rb:298-310 | The line scanner keeps exactly the lines from each exact BEGIN line through the next exact END line. An unterminated block runs to the end of the input. |
| `Strip.SyncStrip` | lib/puppet/provider/pki_cert_sync/sync.rb:294-312 | The directory provider's stripper returns the single-file provider's result plus one newline, so its result always ends in a newline. |
| `Strip.NoCertificateText` | lib/puppet/provider/pki_cert_strip/linux.rb:94-112 | A text with no BEGIN line strips to `""` in the single-file provider and to `"\n"` in the directory provider. |
| `Strip.SyncStripOfEmpty` | spec/unit/puppet/provider/pki_cert_sync/sync_spec.rb:86-88 | The empty text splits into no lines. The directory provider's stripper turns it into `"\n"`, where the test expects `""`; the single-file stripper gives `""`. |
| `Strip.StripIdempotent` | lib/puppet/provider/pki_cert_strip/linux.rb:100-111 | Stripping a stripped text again returns it unchanged, for both strippers. |
| `Text.RubySplit` | lib/puppet/provider/pki_cert_sync/sync.rb:300 | `split` returns the separator-free fields in order with the trailing empty fields dropped, so `""` splits into nothing. |
| `Text.RubySplitOfTerminatedJoin` | lib/puppet/provider/pki_cert_sync/sync.rb:311 | Splitting the join of separator-free lines (the last non-empty) plus a final separator gives the lines back. |
| `Text.SortedPaths` | lib/puppet/provider/pki_cert_sync/sync.rb:27 | The sorted listing holds each member of the set exactly once, in strictly ascending byte order. |
| `Text.Format08x` | lib/puppet/provider/pki_cert_sync/sync.rb:56 | `%08x` renders lowercase hexadecimal digits that read back as the number: exactly eight below 16^8, and more only with no leading zero. |
| `Text.ToIOfDecimal` | lib/puppet/provider/pki_cert_sync/sync.rb:59-61 | `to_i` reads a rendered counter back as the same number, so a file named `<hash>.<n>` asks for slot `n`. |
| `Text.ToIOfPrefixedDecimal` | lib/puppet/provider/pki_cert_sync/sync.rb:59-61 | Base-10 `to_i` skips a `0d` or `0D` prefix, so a file named `<hash>.0d<n>` also asks for slot `n`. |
| `Text.ContainsSpec` | lib/puppet/provider/pki_cert_sync/sync.rb:179 | `include?` holds exactly when the path occurs at some offset of the name. |
| `Text.StripEmptyIffBlank` | lib/puppet/provider/pki_cert_strip/linux.rb:83 | `strip` yields `""` exactly when the text holds only NUL and white-space characters. |
| `FileTree.Listing` | lib/puppet/provider/pki_cert_sync/sync.rb:27 | The recursive glob lists, sorted, exactly the paths of the tree with no component starting with a dot. |
| `FileTree.Read` | lib/puppet/provider/pki_cert_sync/sync.rb:274-279 | Reading a path succeeds exactly when it is a regular file, or a chain of symbolic links it names ends at one. |
| `FileTree.RemoveTree` | lib/puppet/provider/pki_cert_sync/sync.rb:182 | `rm_rf` removes the path and everything beneath it and leaves every other entry as it was. |
| `FileTree.RemoveFile` | lib/puppet/provider/pki_cert_sync/sync.rb:254-255 | `rm_f` removes a file or a link, and leaves a directory, a missing path and every other entry alone. |
| `FileTree.MakeDirectories` | lib/puppet/provider/pki_cert_sync/sync.rb:197 | `mkdir_p` keeps every existing entry and adds only directories of the list. It stops with `NotADirectory` on a listed path held by a non-directory. |
| `HashIndex.InsertAt` | lib/puppet/provider/pki_cert_sync/sync.rb:61 | `Array#insert` pads with `nil` past the end, counts a negative index from the end, and fails before the start. The inserted file lands at its slot. The held slots keep their order: those before the slot stay in place, and those from it on move up by one. Padding is all `nil`. |
| `HashIndex.Fill` | lib/puppet/provider/pki_cert_sync/sync.rb:63-65 | A file not named after its hash takes the first `nil` slot (or the end), and every other slot keeps its file. |
| `HashIndex.Place` | lib/puppet/provider/pki_cert_sync/sync.rb:56-66 | Placing one certificate adds exactly that file under its hash and keeps bucket hashes distinct. It fails, naming the file, exactly when the file is named after its hash and its suffix asks for a slot below -(n+1), where n is the length of that hash's bucket. |
| `HashIndex.Bucketize` | lib/puppet/provider/pki_cert_sync/sync.rb:43-67 | After the scan loop, a bucket holds a file under a hash exactly when that (file, hash) pair was parsed. A failure names a parsed file named after its hash whose suffix asks for a slot below -1. When no file named after its hash asks for a negative slot, the loop succeeds. |
| `HashIndex.NumberSlots` | lib/puppet/provider/pki_cert_sync/sync.rb:71-76 | A bucket's slots, `nil` included, get strictly rising counters under the bucket's hash. A slot holding a bundle name is skipped without using a counter. Without such names, slot `k` is numbered `k`. |
| `HashIndex.RenderInjective` | lib/puppet/provider/pki_cert_sync/sync.rb:74 | Two well-formed link names that render to the same string are equal. |
| `HashIndex.WithAggregates` | lib/puppet/provider/pki_cert_sync/sync.rb:79-82 | The bundle entries, each mapped to itself, are added exactly when the mapping is not empty, and nothing else is added. |
| `HashIndex.BuildMapping` | lib/puppet/provider/pki_cert_sync/sync.rb:56-82 | The mapping has unique keys and distinct link names. Every hashed link stands for a parsed file under its own hash, and every parsed non-bundle file is a key. The bundle entries are present exactly when a certificate is. A failure names a parsed file named after its hash asking for a slot below -1. When no file named after its hash asks for a negative slot, it succeeds. |
| `HashIndex.RenderedNamesDistinct` | lib/puppet/provider/pki_cert_sync/sync.rb:70-77 | No two entries of the mapping link to the same path. |
| `HashIndex.AggregateNamesMatch` | lib/puppet/provider/pki_cert_sync/sync.rb:29 | Both bundle names match the pattern `cacerts(_no_headers)?.pem`. |
| `Snapshot.Scanned` | lib/puppet/provider/pki_cert_sync/sync.rb:27-29 | The sorted glob without symbolic links and without names matching the bundle pattern. |
| `Snapshot.Directories` | lib/puppet/provider/pki_cert_sync/sync.rb:32 | The directory list is, in order, exactly the visible non-link directories of the source that do not match the bundle pattern. |
| `Snapshot.Candidates` | lib/puppet/provider/pki_cert_sync/sync.rb:34 | The files to parse are, in order, exactly the visible regular files not named like a bundle. |
| `Snapshot.CertificateFiles` | lib/puppet/provider/pki_cert_sync/sync.rb:43-51 | A file that does not parse is skipped. The remaining files are, in order, exactly the certificate files of the source. |
| `Snapshot.Stage` | lib/puppet/provider/pki_cert_sync/sync.rb:40-54 | The staged bundle holds the certificates' raw bytes and the stripped bundle their stripped bytes, in scan order. Every other entry of the target is unchanged. `Snapshot.ScanSource` stages only when neither staging path is a directory. |
| `Snapshot.StagedReadsBack` | lib/puppet/provider/pki_cert_sync/sync.rb:40-54 | Reading either staging file back after staging gives exactly the bytes written to it: the raw certificates, or their stripped text, in file order. |
| `Snapshot.Source` | lib/puppet/provider/pki_cert_sync/sync.rb:16-39 | `source` raises unless the source is a directory, and raises when the target exists but is not a directory. A target whose parent directory is missing raises, as `Dir.mkdir` does (ENOENT). Otherwise it is the scan into the target, created empty when missing. |
| `Snapshot.Index` | lib/puppet/provider/pki_cert_sync/sync.rb:43-82 | The mapping links only certificate files, each under its own formatted subject hash, and links every certificate file. Link paths are distinct. Bundle entries are present exactly when the source holds a certificate. A failure names a certificate file named after its hash asking for a slot below -1. When no such certificate file asks for a negative slot, it succeeds. |
| `Snapshot.IndexOutcome` | lib/puppet/provider/pki_cert_sync/sync.rb:56-66 | The indexer raises only on a certificate file named after its own subject hash whose suffix asks for a slot below -1. It succeeds when no such certificate file asks for a negative slot. |
| `Snapshot.ScanSource` | lib/puppet/provider/pki_cert_sync/sync.rb:25-83 | A staging path that is, or links to, a directory makes the scan raise `EISDIR` before any file is parsed. `.cacerts.pem` is opened first, so it is the one named when both are directories. Otherwise a failure names a certificate file asking for a slot before the start. The scan returns the mapping and the sorted directory list. The target gains the two staged bundles and nothing else. It succeeds when both staging paths are writable and no certificate file named after its hash asks for a negative slot. |
| `SyncCheck.SourceInSync` | lib/puppet/provider/pki_cert_sync/sync.rb:102-168 | The check raises exactly when the target exists but is not a directory, or is missing together with its parent directory (`Dir.mkdir`, ENOENT). Otherwise the verdict is the provider's decision on the target, which is empty when it was missing. |
| `SyncCheck.Names` | lib/puppet/provider/pki_cert_sync/sync.rb:110 | `flatten.uniq` holds exactly the keys, `nil` included, and the link names. |
| `SyncCheck.DecideMeans` | lib/puppet/provider/pki_cert_sync/sync.rb:107-163 | The short-circuiting loops decide true exactly when the loop-free `Converged` holds. With purging, file count and directory set match. Every key and link name is a regular file. Certificates match the source and have a symbolic link named by their link name. Bundles match their staged copies. |
| `SyncCheck.InSyncMeansCurrent` | lib/puppet/provider/pki_cert_sync/sync.rb:127-163 | In sync implies the target is a directory. Every key and link name resolves to a regular file, and certificate bytes equal the source's. Each link is a symbolic link whose stored target is the key, and each bundle equals its staged dot-file. |
| `SyncCheck.FreshTargetNotInSync` | lib/puppet/provider/pki_cert_sync/sync.rb:103 | A missing target, created empty, is out of sync with a non-empty mapping. When purging, it is also out of sync with a non-empty directory list. |
| `SyncCheck.NilKeyNeverInSync` | lib/puppet/provider/pki_cert_sync/sync.rb:129-135 | A mapping with a `nil` key is never in sync. |
| `SyncCheck.SelfLinkNeverInSync` | lib/puppet/provider/pki_cert_sync/sync.rb:157 | A certificate whose link name equals its own top-level file name is never in sync. |
| `Converge.Flattened` | lib/puppet/provider/pki_cert_sync/sync.rb:178-179 | `[@to_link.to_a].flatten` lists each key followed by its link name, in mapping order. |
| `Converge.Protected` | lib/puppet/provider/pki_cert_sync/sync.rb:179 | `any?` tries the names in order. It is false exactly when every name is non-`nil` and none contains the path. It is true exactly when some name contains the path and every name before it is non-`nil`. It raises exactly when some name is `nil` and every name before it is non-`nil` and does not contain the path. |
| `Converge.PurgeCandidates` | lib/puppet/provider/pki_cert_sync/sync.rb:178 | The purge list is, sorted, exactly the visible target paths that are neither a flattened name nor a listed directory. |
| `Converge.Purge` | lib/puppet/provider/pki_cert_sync/sync.rb:175-184 | The purge only removes. A removed path is an unprotected candidate or lies beneath one. Without a stop, every unprotected candidate is gone. It stops only on a `nil` name. |
| `Converge.MakeEach` | lib/puppet/provider/pki_cert_sync/sync.rb:196-198 | Creating the listed directories keeps every entry. A new entry is a directory on the way to a listed one. |
| `Converge.SyncPair` | lib/puppet/provider/pki_cert_sync/sync.rb:201-247 | A bundle is copied from its staged dot-file when that exists. A certificate is copied from the source and linked under its link name only when its path exists in the target. A `nil` key raises. Nothing else changes. |
| `Converge.SyncPairs` | lib/puppet/provider/pki_cert_sync/sync.rb:201-247 | The copy loop removes nothing and writes only keys and link names of the mapping. Run to the end, it leaves every bundle whose staged dot-file was a regular file holding that file's bytes. Every certificate present in the target (not as a link) holds the source's bytes, and it is linked under its link name when that differs. Both hold when no other pair writes the same paths. |
| `Converge.CopyAll` | lib/puppet/provider/pki_cert_sync/sync.rb:201-256 | The copy loop, then removing both bundles when the mapping is empty. Only the bundles can disappear. Every other change is a mapped name. Run to the end, it makes the copy loop's bundle copies and certificate copies and links. |
| `Converge.Rebuild` | lib/puppet/provider/pki_cert_sync/sync.rb:191-256 | After the purge, the canary exists. Every change is the canary, a directory on the way to a listed one, or a mapped name. An empty mapping leaves no bundle file. Run to the end, it makes the same bundle copies and certificate copies and links as the copy loop, judged on the tree before the canary. |
| `Converge.Apply` | lib/puppet/provider/pki_cert_sync/sync.rb:170-258 | `source=` stops only on a `nil` name, a non-directory in the way of `mkdir_p`, or a failed copy. Without a `nil` key the canary exists. Every change is the canary, a directory on the way to a listed one, or a mapped name. An empty mapping removes both bundle files, purge or not. Run to the end, with or without purge, each bundle whose staged dot-file was a regular file of the target is a copy of it, provided no other pair writes that bundle or its staged file. Each certificate key present in the target as a non-link entry, provided no other pair writes the key or its link name, holds the source's bytes and is linked under its link name when that differs. |
| `Converge.AppliedPairIsCurrent` | lib/puppet/provider/pki_cert_sync/sync.rb:213-237 | After `source=` runs to the end, such a bundle, and such a certificate with a link name of its own, pass the per-pair check of `source_insync?` (sync.rb:141-163). |
| `Converge.SyncedPairIsCurrent` | lib/puppet/provider/pki_cert_sync/sync.rb:231-237 | A certificate just copied and linked passes the per-pair in-sync check. |
| `Converge.SyncedBundleIsCurrent` | lib/puppet/provider/pki_cert_sync/sync.rb:213-214 | A bundle just copied from its staged regular file passes the per-pair in-sync check. |
| `Converge.PurgeSpares` | lib/puppet/provider/pki_cert_sync/sync.rb:176-183 | The purge leaves untouched every top-level dot-entry (a dot-file inside a purged directory goes with it), every path occurring inside a mapped key or link name, and every listed directory whose enclosing directories are listed. |
| `Converge.ApplyKeepsShielded` | lib/puppet/provider/pki_cert_sync/sync.rb:249-256 | Every such protected path survives `source=`, except the bundles, which an empty mapping removes. |
| `Converge.ApplyToFreshTarget` | lib/puppet/provider/pki_cert_sync/sync.rb:221 | Start from a target holding only dot-files, with no mapped certificate path on the way to a listed directory. `source=` then creates no link and copies no certificate. |
| `Converge.FreshTargetGetsNoCertificates` | lib/puppet/provider/pki_cert_sync/sync.rb:221-245 | Run `source` on a well-formed source and a missing target, then `source=`. The result holds no symbolic link and no certificate file of the source. |
| `CertStrip.ToUid` | lib/puppet/provider/pki_cert_strip/linux.rb:114-117 | An integer owner is returned unchanged, and a name is looked up. |
| `CertStrip.ToGid` | lib/puppet/provider/pki_cert_strip/linux.rb:119-122 | An integer group is returned unchanged. |
| `CertStrip.GroupNamesResolvedAsUsers` | lib/puppet/provider/pki_cert_strip/linux.rb:119-122 | A group name is resolved through the user lookup, exactly as an owner name is. |
| `CertStrip.Source` | lib/puppet/provider/pki_cert_strip/linux.rb:15-30 | Source information is absent exactly when the source file is missing. Otherwise it holds the stripped content and the file's uid, gid, mode and SELinux type. |
| `CertStrip.SourceContentStripped` | lib/puppet/provider/pki_cert_strip/linux.rb:21 | The recorded content is a fixed point of the stripper. |
| `CertStrip.DesiredOwner` | lib/puppet/provider/pki_cert_strip/linux.rb:37 | The desired owner is the resource's owner when set. Otherwise it is the source's uid, and it raises when there is no source information. |
| `CertStrip.DesiredGroup` | lib/puppet/provider/pki_cert_strip/linux.rb:40 | The desired group is the resource's group when set. Otherwise it is the source's gid, and it raises when there is no source information. |
| `CertStrip.DesiredMode` | lib/puppet/provider/pki_cert_strip/linux.rb:43 | The desired mode is the resource's mode when set. Otherwise it is the source's mode, and it raises when there is no source information. |
| `CertStrip.DesiredSeltype` | lib/puppet/provider/pki_cert_strip/linux.rb:46 | The desired SELinux type is the resource's when set. Otherwise it is the source's, and it raises when there is no source information. |
| `CertStrip.SourceInSync` | lib/puppet/provider/pki_cert_strip/linux.rb:32-51 | A missing target is out of sync. The check raises only when a source attribute is needed and there is no source information. With source information it never raises. |
| `CertStrip.InSyncIffAgrees` | lib/puppet/provider/pki_cert_strip/linux.rb:37-50 | With source information, the check holds exactly when the target exists and agrees attribute by attribute, with each attribute falling back to the source's value. The content must equal the stripped source. |
| `CertStrip.ContentMismatchNeverInSync` | lib/puppet/provider/pki_cert_strip/linux.rb:49 | A target whose bytes differ from the stripped source is out of sync, whatever its attributes. |
| `CertStrip.OwnerMustEqualGroup` | lib/puppet/provider/pki_cert_strip/linux.rb:38-41 | With no owner or group set, a source whose uid and gid differ is never in sync. |
| `CertStrip.GenerateCacertsPem` | lib/puppet/provider/pki_cert_strip/linux.rb:75-88 | The content is stripped exactly when the flag is set. The warning is issued exactly when the content holds only NUL and white space. |
| `CertStrip.NoCertificateWarns` | lib/puppet/provider/pki_cert_strip/linux.rb:76-85 | A text without a certificate strips to `""` and is warned about. |

## Behaviour modelled as written

Each line below names a place where the code does something other than
what it evidently intends. The model follows the code, except for the
first two items and the last one.

- sync.rb:45 reads `File.read(raw_cert)`. The assignment makes `raw_cert`
  a local that is still `nil` on the right-hand side, so the read raises
  `TypeError` for the first candidate file. sync.rb:54 writes to
  `exp_stripped_certs`, a name that does not exist, which would raise
  `NameError`. The model follows the evident intent instead, which
  sync_spec.rb:156-164 expects. It reads `file` and writes the stripped
  text to the stripped staging file.
- The `ensure` clause at sync.rb:84-86 closes `exp_cacerts` and
  `exp_stripped_cacerts`. Both are first assigned inside the
  `Dir.chdir(src)` block (sync.rb:40-41), so they are local to that block.
  In the method's `ensure` they are unknown names, and `source` raises
  `NameError` on every call. That includes an empty source. The
  `NameError` also replaces any exception raised earlier in the method.
  The model follows the evident intent: it closes both staging files and
  returns `@to_link`, or the earlier exception. See `Snapshot.Source` under
  "## Left out".
- sync.rb:221 asks whether the certificate exists in the target, not in
  the source, before copying it. On a fresh target no certificate is ever
  copied and no link is made. See `Converge.ApplyToFreshTarget` and
  `Converge.FreshTargetGetsNoCertificates`.
- sync.rb:157 demands a symbolic link even when the link name equals the
  file name, so such a certificate is never in sync
  (`SyncCheck.SelfLinkNeverInSync`).
- `Array#insert` padding leaves `nil` slots, which sync.rb:72-74 maps under
  a `nil` key. Such a mapping is never in sync (`SyncCheck.NilKeyNeverInSync`).
  Its purge raises on the first candidate that no name before the `nil`
  protects.
- sync.rb:311 appends a newline, so the empty text strips to `"\n"`
  (`Strip.SyncStripOfEmpty`).
- linux.rb:41 compares the target's uid against the desired gid
  (`CertStrip.OwnerMustEqualGroup`).
- linux.rb:121 looks a group name up as a user name
  (`CertStrip.GroupNamesResolvedAsUsers`).
- linux.rb:47 calls `seltype` on a `File::Stat`, which Ruby does not
  define. As written, `source_insync?` therefore raises `NoMethodError`
  whenever the owner, group and mode checks pass, and never returns true.
  The model reads it as the file's SELinux type instead, so it can return
  true (see "## Left out").

## Left out

- `Snapshot.Source`: the `NameError` that the `ensure` at sync.rb:84-86
  raises on every call is not modelled. It names two block-local
  variables after the block has ended. The model returns what `source`
  evidently intends to return. The `TypeError` from `File.read(raw_cert)`
  at sync.rb:45 is not modelled either (see "## Behaviour modelled as
  written").
- OpenSSL parsing and `subject.hash` (sync.rb:46, 56) are foreign code. They
  are the parameter `parse: string -> Option<nat>` on a file's bytes.
- SELinux contexts (sync.rb:204-241, linux.rb:25) are platform calls. They
  are not modelled, except as the abstract `seltype` attribute of
  `CertStrip.PemFile`.
- Ownership, permissions and timestamps in the directory provider, and
  `chmod` (sync.rb:39-41, 192) are not part of the file-tree model.
  `cp :preserve` is modelled as copying the bytes only.
- `Puppet.warning`, `debug` and `notice` are logging. The only warning
  modelled is the one `generate_cacerts_pem` decides (`CertStrip.Generated.warned`).
- linux.rb:53-63 `source=` is left out. It refers to the undefined names
  `content` and `cacerts_file`, so its `else` branch raises `NameError`.
- The user lookup `Puppet::Util::POSIX#uid` is a foreign call. It is the
  parameter `uidOf`.
- `FileUtils.cp` onto a directory, or through a symbolic link at the
  destination, is modelled as replacing the entry at the destination path.
  `ln_sf` likewise replaces the entry at the link name.
- A directory given as the linux.rb source (`IO.read` raising `EISDIR`) is
  not modelled; a source file is present or missing.
- The staging files are written while the scan runs, so a failing scan
  leaves them partly written. The model does not stage anything on
  failure. Writing the staging files through a symbolic link is not
  modelled.
- Relative link targets are resolved by joining them to the link's
  directory, without `..` normalisation. Absolute link targets point
  outside the tree and count as dangling.
- `Dir.glob` order is taken as sorted, as Ruby 3.0 and later return it.
  It matters only for the order of the purge.
- `Converge.Apply`: "after `source=` the target is in sync" is not stated.
  The defects above make it false. What is stated is the per-pair part,
  for the pairs the copy loop reaches (`Converge.AppliedPairIsCurrent`).
- `CertStrip.SourceInSync`: the `NoMethodError` that linux.rb:47 raises
  once owner, group and mode agree is replaced by a comparison of the
  abstract SELinux type, so the model can return true where the code
  always raises.
- `CertStrip.SourceInSync`: `File::Stat#mode` includes the file-type bits
  and a resource mode may be a symbolic string. Both are taken as the same
  integer encoding.
- `Strip.SyncStrip`: text is a sequence of bytes and never fails. Ruby
  tags `File.read` data with the default external encoding (UTF-8), and
  `split("\n")` and `match` raise `ArgumentError` on an invalid byte
  sequence. This happens for a DER certificate or a Latin-1 byte in a
  PEM preamble. Both strippers (sync.rb:300-305, linux.rb:100-105) are
  modelled without this failure.
- `Snapshot.Source`: for the same reason, a certificate file whose bytes
  are not valid UTF-8 is scanned, staged and mapped. In the code,
  `strip_x509_headers` at sync.rb:54 raises. The `=~` at sync.rb:29 on a
  file name that is not valid UTF-8 raises as well.
- `CertStrip.Source`: a source file whose bytes are not valid UTF-8
  yields source information. In the code, stripping it at linux.rb:21
  raises `ArgumentError`.
- `FileTree.Resolve`: a symbolic link is followed only when the path
  itself names it, not when an enclosing directory of the path is a link.
  So `Exists`, `IsFile`, `Read` and `MkdirP` see `link/x` as missing when
  `link` points at a directory holding `x`. Without purge, a listed
  directory of the target that is a link to a directory holding the
  certificate is skipped by the model, where sync.rb:221-237 copies and
  links it.
- `HashIndex.InsertAt`: pads without bound. Ruby raises `RangeError` for an
  index of 2^63 or more, and `IndexError` or `NoMemoryError` for a huge
  in-range one. A file named `<hash>.<n>` with so large an `n` is not
  modelled as failing.
- lib/puppet/type/pki_cert_sync.rb and lib/puppet/type/pki_cert_strip.rb
  are resource declarations: parameter validation, mode munging and
  autorequire. They are not part of this model.

=== FILE: certstrip.dfy ===
/** The single-file provider (lib/puppet/provider/pki_cert_strip/linux.rb):
    a target PEM file holds the certificate blocks of a source PEM file,
    with owner, group, mode and SELinux type taken from the resource when
    it sets them and from the source file otherwise. */
module CertStrip {
  import opened Wrappers
  import opened Text
  import opened FileTree
  import opened Strip

  /** A user or a group as the resource names it: a numeric id or a name. */
  datatype Principal = Id(id: int) | Name(name: string)

  /** A file as `File.stat`, the SELinux query and `IO.read` see it. The
      SELinux type is an abstract attribute of the file. */
  datatype PemFile = PemFile(content: string, uid: int, gid: int, mode: int, seltype: Option<string>)

  /** `@info`: what `source` records about the source file. */
  datatype Info = Info(content: string, uid: int, gid: int, mode: int, seltype: Option<string>)

  /** The attributes the resource may set; `None` when it leaves one unset. */
  datatype Overrides = Overrides(owner: Option<Principal>, group: Option<Principal>, mode: Option<int>,
                                 seltype: Option<string>)

  /** The account database: the id of a user name, `None` for an unknown
      name. */
  type UidLookup = string -> Option<int>

  /** `touid`: an id is returned unchanged, a name is looked up. */
  function ToUid(v: Principal, uidOf: UidLookup): (r: Option<int>)
    ensures v.Id? ==> r == Some(v.id)
    ensures v.Name? ==> r == uidOf(v.name)
  {
    match v
    case Id(n) => Some(n)
    case Name(s) => uidOf(s)
  }

  /** `togid`: an id is returned unchanged; a name is looked up in the user
      database, as the provider is written. */
  function ToGid(v: Principal, uidOf: UidLookup): (r: Option<int>)
    ensures v.Id? ==> r == Some(v.id)
  {
    match v
    case Id(n) => Some(n)
    case Name(s) => uidOf(s)
  }

  /** A group name resolves to the id of the user of that name. */
  lemma GroupNamesResolvedAsUsers(v: Principal, uidOf: UidLookup)
    ensures ToGid(v, uidOf) == ToUid(v, uidOf)
  {
  }

  /** `source`: nothing for a missing source; otherwise its certificate
      blocks, without the text between them, and its attributes. */
  function Source(src: Option<PemFile>): (r: Option<Info>)
    ensures r.None? <==> src.None?
    ensures r.Some? ==>
              && r.value.content == LinuxStrip(src.value.content)
              && r.value.uid == src.value.uid && r.value.gid == src.value.gid
              && r.value.mode == src.value.mode && r.value.seltype == src.value.seltype
  {
    match src
    case None => None
    case Some(f) => Some(Info(LinuxStrip(f.content), f.uid, f.gid, f.mode, f.seltype))
  }

  /** The recorded content is already stripped: stripping it again changes
      nothing. */
  lemma SourceContentStripped(src: Option<PemFile>)
    requires src.Some?
    ensures LinuxStrip(Source(src).value.content) == Source(src).value.content
  {
    StripIdempotent(src.value.content);
  }

  // ---------------------------------------------------------------------
  // the desired attributes: the resource's value, else the source's
  // ---------------------------------------------------------------------

  function DesiredOwner(res: Overrides, info: Option<Info>, uidOf: UidLookup): (r: Result<Option<int>, Error>)
    ensures res.owner.Some? ==> r == Success(ToUid(res.owner.value, uidOf))
    ensures res.owner.None? && info.Some? ==> r == Success(Some(info.value.uid))
    ensures res.owner.None? && info.None? ==> r == Failure(MissingSourceInfo)
  {
    if res.owner.Some? then Success(ToUid(res.owner.value, uidOf))
    else if info.None? then Failure(MissingSourceInfo)
    else Success(Some(info.value.uid))
  }

  function DesiredGroup(res: Overrides, info: Option<Info>, uidOf: UidLookup): (r: Result<Option<int>, Error>)
    ensures res.group.Some? ==> r == Success(ToGid(res.group.value, uidOf))
    ensures res.group.None? && info.Some? ==> r == Success(Some(info.value.gid))
    ensures res.group.None? && info.None? ==> r == Failure(MissingSourceInfo)
  {
    if res.group.Some? then Success(ToGid(res.group.value, uidOf))
    else if info.None? then Failure(MissingSourceInfo)
    else Success(Some(info.value.gid))
  }

  function DesiredMode(res: Overrides, info: Option<Info>): (r: Result<int, Error>)
    ensures res.mode.Some? ==> r == Success(res.mode.value)
    ensures res.mode.None? && info.Some? ==> r == Success(info.value.mode)
    ensures res.mode.None? && info.None? ==> r == Failure(MissingSourceInfo)
  {
    if res.mode.Some? then Success(res.mode.value)
    else if info.None? then Failure(MissingSourceInfo)
    else Success(info.value.mode)
  }

  function DesiredSeltype(res: Overrides, info: Option<Info>): (r: Result<Option<string>, Error>)
    ensures res.seltype.Some? ==> r == Success(res.seltype)
    ensures res.seltype.None? && info.Some? ==> r == Success(info.value.seltype)
    ensures res.seltype.None? && info.None? ==> r == Failure(MissingSourceInfo)
  {
    if res.seltype.Some? then Success(res.seltype)
    else if info.None? then Failure(MissingSourceInfo)
    else Success(info.value.seltype)
  }

  /** `source_insync?`: a missing target is out of sync. Then the owner,
      the group (compared, as written, against the target's owner), the
      mode, the SELinux type and the content are checked in turn, the first
      mismatch deciding; reading an attribute of missing source information
      raises. */
  function SourceInSync(info: Option<Info>, target: Option<PemFile>, res: Overrides, uidOf: UidLookup)
    : (r: Result<bool, Error>)
    ensures target.None? ==> r == Success(false)
    ensures r.Failure? ==> r.error == MissingSourceInfo && info.None? && target.Some?
    ensures info.Some? ==> r.Success?
  {
    if target.None? then Success(false)
    else
      var t := target.value;
      var uid :- DesiredOwner(res, info, uidOf);
      if Some(t.uid) != uid then Success(false)
      else
        var gid :- DesiredGroup(res, info, uidOf);
        if Some(t.uid) != gid then Success(false)
        else
          var mode :- DesiredMode(res, info);
          if t.mode != mode then Success(false)
          else
            var seltype :- DesiredSeltype(res, info);
            if t.seltype != seltype then Success(false)
            else if info.None? then Failure(MissingSourceInfo)
            else Success(t.content == info.value.content)
  }

  /** The target agrees with the source information and the overrides:
      each attribute equals the resource's value when it sets one and the
      source's otherwise, with the group compared against the target's
      owner as the provider does, and the content equals the stripped
      source. */
  ghost predicate Agrees(info: Info, t: PemFile, res: Overrides, uidOf: UidLookup)
  {
    && Some(t.uid) == (if res.owner.Some? then ToUid(res.owner.value, uidOf) else Some(info.uid))
    && Some(t.uid) == (if res.group.Some? then ToGid(res.group.value, uidOf) else Some(info.gid))
    && t.mode == (if res.mode.Some? then res.mode.value else info.mode)
    && t.seltype == (if res.seltype.Some? then res.seltype else info.seltype)
    && t.content == info.content
  }

  /** With source information at hand, the check holds exactly when the
      target exists and agrees. */
  lemma InSyncIffAgrees(info: Info, target: Option<PemFile>, res: Overrides, uidOf: UidLookup)
    ensures SourceInSync(Some(info), target, res, uidOf) == Success(true) <==>
              target.Some? && Agrees(info, target.value, res, uidOf)
  {
  }

  /** A target whose bytes differ from the stripped source is never in
      sync, whatever its attributes. */
  lemma ContentMismatchNeverInSync(src: PemFile, t: PemFile, res: Overrides, uidOf: UidLookup)
    requires t.content != LinuxStrip(src.content)
    ensures SourceInSync(Source(Some(src)), Some(t), res, uidOf) == Success(false)
  {
  }

  /** Because the group check reads the target's owner, a source whose
      owner and group differ can never be matched when the resource sets
      neither. */
  lemma OwnerMustEqualGroup(info: Info, target: Option<PemFile>, uidOf: UidLookup)
    requires info.uid != info.gid
    ensures SourceInSync(Some(info), target, Overrides(None, None, None, None), uidOf) == Success(false)
  {
  }

  // ---------------------------------------------------------------------
  // generate_cacerts_pem
  // ---------------------------------------------------------------------

  /** The text `generate_cacerts_pem` computes and whether it warns that
      the bundle is empty. */
  datatype Generated = Generated(content: string, warned: bool)

  /** `generate_cacerts_pem`: the raw text, stripped when asked; a warning
      when `content.strip` is empty. */
  function GenerateCacertsPem(raw: string, strip: bool): (r: Generated)
    ensures strip ==> r.content == LinuxStrip(raw)
    ensures !strip ==> r.content == raw
    ensures r.warned <==> BlankAfterStrip(r.content)
  {
    var content := if strip then LinuxStrip(raw) else raw;
    StripEmptyIffBlank(content);
    Generated(content, RubyStrip(content) == "")
  }

  /** Stripping a text with no certificate leaves nothing, so the empty
      bundle is warned about. */
  lemma NoCertificateWarns(raw: string)
    requires forall i :: 0 <= i < |Lines(raw)| ==> Lines(raw)[i] != BeginMarker
    ensures GenerateCacertsPem(raw, true) == Generated("", true)
  {
    NoCertificateText(raw);
  }
}

=== FILE: compare.dfy ===
/** `files_different?` of the directory sync provider
    (lib/puppet/provider/pki_cert_sync/sync.rb): a missing file makes two
    files different, so does a size mismatch; otherwise the contents are
    compared in 512-byte chunks until one chunk differs. */
module Compare {
  import opened Wrappers

  /** The chunk length the provider reads at a time. */
  const ChunkSize: nat := 512

  /** The reference meaning of "different": one side is missing, or the
      two byte strings are not equal. */
  predicate Differ(src: Option<string>, dest: Option<string>)
  {
    src.None? || dest.None? || src.value != dest.value
  }

  /** The chunked comparison as the provider performs it; its verdict is
      exactly `Differ`. A file compared with itself is never different,
      and a missing file always is. */
  method FilesDifferent(src: Option<string>, dest: Option<string>) returns (different: bool)
    ensures different <==> Differ(src, dest)
    ensures src.None? || dest.None? ==> different
    ensures src.Some? && dest.Some? && |src.value| != |dest.value| ==> different
    ensures src.Some? && src == dest ==> !different
  {
    if src.None? || dest.None? {
      return true;
    }
    var a, b := src.value, dest.value;
    if |a| != |b| {
      return true;
    }
    var pos := 0;
    while pos < |a|
      invariant 0 <= pos <= |a|
      invariant a[..pos] == b[..pos]
      decreases |a| - pos
    {
      var next := if pos + ChunkSize <= |a| then pos + ChunkSize else |a|;
      if a[pos..next] != b[pos..next] {
        return true;
      }
      assert a[..next] == a[..pos] + a[pos..next];
      assert b[..next] == b[..pos] + b[pos..next];
      pos := next;
    }
    assert a == a[..pos] && b == b[..pos];
    return false;
  }
}

=== FILE: converge.dfy ===
/** `source=` of the directory sync provider
    (lib/puppet/provider/pki_cert_sync/sync.rb): brings the target in line
    with what `source` computed. In order: purge (when asked) every listed
    path that no mapped name protects, touch the canary file, create the
    directory list, copy each certificate and link it under its hashed
    name, copy each bundle from its staged dot-file, and remove the bundles
    when the mapping is empty. An exception stops the run where it is. */
module Converge {
  import opened Wrappers
  import opened Text
  import opened FileTree
  import opened HashIndex
  import opened Snapshot
  import opened SyncCheck

  /** The canary file touched on every run. */
  const Canary: Path := ".sync_updated"

  /** `[@to_link.to_a].flatten`: each key followed by its link name, in
      mapping order; a `nil` key stays `nil`. */
  function Flattened(links: Mapping): (r: seq<Option<Path>>)
    ensures |r| == 2 * |links|
    ensures forall k :: 0 <= k < |links| ==> r[2 * k] == links[k].file && r[2 * k + 1] == Some(Render(links[k].name))
    ensures forall n :: n in r <==> exists e :: e in links && (n == e.file || n == Some(Render(e.name)))
  {
    if |links| == 0 then []
    else
      var rest := Flattened(links[1..]);
      assert forall e :: e in links <==> e == links[0] || e in links[1..];
      [links[0].file, Some(Render(links[0].name))] + rest
  }

  /** Every name before position `k` is present and does not contain `p`. */
  predicate ClearBefore(names: seq<Option<Path>>, p: Path, k: int)
  {
    forall j :: 0 <= j < k && j < |names| ==> names[j].Some? && !Contains(names[j].value, p)
  }

  /** The name at `k` is the first to contain `p`, with no `nil` before it. */
  predicate FirstHit(names: seq<Option<Path>>, p: Path, k: int)
  {
    0 <= k < |names| && ClearBefore(names, p, k) && names[k].Some? && Contains(names[k].value, p)
  }

  /** The name at `k` is `nil`, and no name before it contains `p`. */
  predicate FirstNil(names: seq<Option<Path>>, p: Path, k: int)
  {
    0 <= k < |names| && ClearBefore(names, p, k) && names[k].None?
  }

  /** `names.any? { |s| s.include?(p) }`: the names are tried in order and
      the first one containing `p` protects it; a `nil` reached before that
      raises, since `nil` has no `include?`. */
  function Protected(names: seq<Option<Path>>, p: Path): (r: Result<bool, Error>)
    ensures r == Success(false) <==> forall k :: 0 <= k < |names| ==> names[k].Some? && !Contains(names[k].value, p)
    ensures r == Success(true) <==> exists k :: FirstHit(names, p, k)
    ensures r.Failure? <==> exists k :: FirstNil(names, p, k)
    ensures r == Success(true) ==> exists k :: 0 <= k < |names| && names[k].Some? && Contains(names[k].value, p)
    ensures r.Failure? ==> r.error == NilPath && exists k :: 0 <= k < |names| && names[k].None?
    decreases |names|
  {
    if |names| == 0 then Success(false)
    else match names[0]
      case None =>
        assert FirstNil(names, p, 0);
        assert forall k :: !FirstHit(names, p, k);
        Failure(NilPath)
      case Some(s) =>
        if Contains(s, p) then
          assert FirstHit(names, p, 0);
          assert forall k :: !FirstNil(names, p, k);
          Success(true)
        else
          var r := Protected(names[1..], p);
          assert forall k :: 1 <= k < |names| ==> names[k] == names[1..][k - 1];
          FirstShift(names, p);
          r
  }

  /** Past a first name that is present and does not contain `p`, the first
      hit and the first `nil` move one position. */
  lemma FirstShift(names: seq<Option<Path>>, p: Path)
    requires |names| > 0 && names[0].Some? && !Contains(names[0].value, p)
    ensures (exists k :: FirstHit(names, p, k)) <==> (exists k :: FirstHit(names[1..], p, k))
    ensures (exists k :: FirstNil(names, p, k)) <==> (exists k :: FirstNil(names[1..], p, k))
  {
    forall k | 0 <= k < |names| - 1
      ensures ClearBefore(names, p, k + 1) <==> ClearBefore(names[1..], p, k)
    {
      assert forall j :: 0 <= j < k ==> names[1..][j] == names[j + 1];
      if ClearBefore(names[1..], p, k) {
        forall j | 0 <= j < k + 1
          ensures names[j].Some? && !Contains(names[j].value, p)
        {
          if j > 0 { assert names[j] == names[1..][j - 1]; }
        }
      }
    }
    if exists k :: FirstHit(names, p, k) {
      var k :| FirstHit(names, p, k);
      assert k > 0;
      assert names[1..][k - 1] == names[k];
      assert FirstHit(names[1..], p, k - 1);
    }
    if exists k :: FirstHit(names[1..], p, k) {
      var k :| FirstHit(names[1..], p, k);
      assert FirstHit(names, p, k + 1);
    }
    if exists k :: FirstNil(names, p, k) {
      var k :| FirstNil(names, p, k);
      assert k > 0;
      assert names[1..][k - 1] == names[k];
      assert FirstNil(names[1..], p, k - 1);
    }
    if exists k :: FirstNil(names[1..], p, k) {
      var k :| FirstNil(names[1..], p, k);
      assert FirstNil(names, p, k + 1);
    }
  }

  /** The purge list: the sorted recursive listing of the target minus the
      flattened mapping and minus the directory list. */
  function PurgeCandidates(t: Tree, names: seq<Option<Path>>, directories: seq<Path>): (r: seq<Path>)
    ensures StrictlySorted(r)
    ensures forall p :: p in r <==> p in t && Visible(p) && Some(p) !in names && p !in directories
  {
    var keep := (p: Path) => Some(p) !in names && p !in directories;
    FilterKeepsOrder(Listing(t), keep);
    Filter(Listing(t), keep)
  }

  /** The purge loop: each candidate in turn is removed together with all
      beneath it (`rm_rf`), unless a name protects it. A path disappears
      only when it is an unprotected candidate or lies beneath one; with no
      `nil` name, every unprotected candidate disappears. */
  function Purge(t: Tree, cands: seq<Path>, names: seq<Option<Path>>): (r: Outcome)
    ensures r.stopped.Some? ==> r.stopped.value == NilPath
    ensures forall p :: p in r.tree ==> p in t && r.tree[p] == t[p]
    ensures forall p :: p in t && p !in r.tree ==>
              exists q :: q in cands && (p == q || Beneath(p, q)) && Protected(names, q) == Success(false)
    ensures r.stopped.None? ==> forall q :: q in cands && Protected(names, q) == Success(false) ==> q !in r.tree
    ensures r.stopped.Some? ==> exists q :: q in cands && Protected(names, q).Failure?
    decreases |cands|
  {
    if |cands| == 0 then Outcome(t, None)
    else
      assert forall q :: q in cands <==> q == cands[0] || q in cands[1..];
      match Protected(names, cands[0])
      case Failure(e) => Outcome(t, Some(e))
      case Success(true) => Purge(t, cands[1..], names)
      case Success(false) =>
        var rest := RemoveTree(t, cands[0]);
        var r := Purge(rest, cands[1..], names);
        assert forall p :: p in t && p !in r.tree ==>
                 exists q :: q in cands && (p == q || Beneath(p, q)) && Protected(names, q) == Success(false) by {
          forall p | p in t && p !in r.tree
            ensures exists q :: q in cands && (p == q || Beneath(p, q)) && Protected(names, q) == Success(false)
          {
            if p !in rest {
              assert cands[0] in cands && (p == cands[0] || Beneath(p, cands[0]));
            } else {
              var q :| q in cands[1..] && (p == q || Beneath(p, q)) && Protected(names, q) == Success(false);
              assert q in cands;
            }
          }
        }
        r
  }

  /** The directory loop: `mkdir_p` on each listed directory, stopping at
      the first that fails. Nothing that existed changes; every new entry is
      a directory on the way to a listed one. */
  function MakeEach(t: Tree, directories: seq<Path>): (r: Outcome)
    ensures r.stopped.None? ==> forall d :: d in directories ==> d in r.tree
    ensures r.stopped.Some? ==> r.stopped.value.NotADirectory?
    ensures forall p :: p in t ==> p in r.tree && r.tree[p] == t[p]
    ensures forall p :: p in r.tree && p !in t ==>
              r.tree[p] == Dir && OnTheWay(directories, p)
    decreases |directories|
  {
    if |directories| == 0 then Outcome(t, None)
    else
      var made := MkdirP(t, directories[0]);
      assert directories[0] in directories;
      if made.stopped.Some? then made
      else
        assert forall d :: d in directories <==> d == directories[0] || d in directories[1..];
        MakeEach(made.tree, directories[1..])
  }

  /** One pair of the copy-and-link loop. A bundle is copied from its
      staged dot-file when that exists. A certificate is copied from the
      source and linked only when its path already exists in the target
      (the check reads the target, not the source); a `nil` key raises.
      Every other entry is left alone. */
  function SyncPair(t: Tree, src: Tree, e: Link): (r: Result<Tree, Error>)
    ensures r.Failure? ==> r.error == NilPath || r.error.CannotCopy?
    ensures e.file.None? ==> r == Failure(NilPath)
    ensures r.Success? ==> forall p :: p in t ==> p in r.value
    ensures r.Success? && e.file.Some? && IsAggregateName(e.file.value) ==>
              forall p :: Changed(t, r.value, p) ==> p == e.file.value
    ensures r.Success? && e.file.Some? && IsAggregateName(e.file.value) && Exists(t, StagedCopy(e.file.value)) ==>
              && Read(t, StagedCopy(e.file.value)).Some?
              && e.file.value in r.value
              && r.value[e.file.value] == File(Read(t, StagedCopy(e.file.value)).value)
    ensures r.Success? && e.file.Some? && !IsAggregateName(e.file.value) ==>
              forall p :: Changed(t, r.value, p) ==> p == e.file.value || p == Render(e.name)
    ensures r.Success? && e.file.Some? && !IsAggregateName(e.file.value) && Exists(t, e.file.value) ==>
              && Read(src, e.file.value).Some?
              && e.file.value in r.value && Render(e.name) in r.value
              && r.value[e.file.value] == File(Read(src, e.file.value).value)
              && (Render(e.name) != e.file.value ==> r.value[Render(e.name)] == Symlink(e.file.value))
    ensures e.file.Some? && !IsAggregateName(e.file.value) && Exists(t, e.file.value) && Read(src, e.file.value).None? ==>
              r == Failure(CannotCopy(e.file.value))
    ensures e.file.Some? && !IsAggregateName(e.file.value) && !Exists(t, e.file.value) ==> r == Success(t)
  {
    match e.file
    case None => Failure(NilPath)
    case Some(f) =>
      if IsAggregateName(f) then
        if !Exists(t, StagedCopy(f)) then Success(t)
        else (
          match Read(t, StagedCopy(f))
          case None => Failure(CannotCopy(StagedCopy(f)))
          case Some(c) => Success(t[f := File(c)]))
      else if !Exists(t, f) then Success(t)
      else (
        match Read(src, f)
        case None => Failure(CannotCopy(f))
        case Some(c) =>
          var copied := t[f := File(c)];
          if Render(e.name) == f then Success(copied) else Success(copied[Render(e.name) := Symlink(f)]))
  }

  /** `p` was added, removed or rewritten between `a` and `b`. */
  predicate Changed(a: Tree, b: Tree, p: Path)
  {
    (p in a) != (p in b) || (p in a && p in b && a[p] != b[p])
  }

  /** `p` is a key or a link name of the mapping. */
  ghost predicate Named(links: Mapping, p: Path)
  {
    exists e :: e in links && (Some(p) == e.file || p == Render(e.name))
  }

  /** `p` is a directory `mkdir_p` passes on the way to a listed one. */
  ghost predicate OnTheWay(directories: seq<Path>, p: Path)
  {
    exists dd :: dd in directories && p in Ancestry(dd)
  }

  /** Neither bundle is left as a file or link. */
  predicate BundlesGone(t: Tree)
  {
    && (BundleName in t ==> t[BundleName] == Dir)
    && (StrippedBundleName in t ==> t[StrippedBundleName] == Dir)
  }

  /** No entry of the mapping other than the one at `k` has `p` as its key
      or its link name, so no other pair of the loop writes `p`. */
  ghost predicate WrittenOnlyBy(links: Mapping, k: int, p: Path)
  {
    forall j :: 0 <= j < |links| && j != k ==> links[j].file != Some(p) && Render(links[j].name) != p
  }

  /** The bundle of the entry at `k` has its staged copy as a regular file
      of the tree; no pair of the loop writes the staged copy, and no other
      pair writes the bundle. */
  ghost predicate BundleReady(t: Tree, links: Mapping, k: int)
  {
    && 0 <= k < |links| && links[k].file.Some? && IsAggregateName(links[k].file.value)
    && StagedCopy(links[k].file.value) in t && t[StagedCopy(links[k].file.value)].File?
    && WrittenOnlyBy(links, k, links[k].file.value)
    && WrittenOnlyBy(links, -1, StagedCopy(links[k].file.value))
  }

  /** The certificate key of the entry at `k` is present in the tree as
      something other than a symbolic link, and no other pair writes the
      key or the entry's link name. */
  ghost predicate CertificateReady(t: Tree, links: Mapping, k: int)
  {
    && 0 <= k < |links| && links[k].file.Some? && !IsAggregateName(links[k].file.value)
    && links[k].file.value in t && !t[links[k].file.value].Symlink?
    && WrittenOnlyBy(links, k, links[k].file.value)
    && WrittenOnlyBy(links, k, Render(links[k].name))
  }

  /** The bundle `f` of `r` is a copy of its staged file in `staged`, and
      that staged file is still there, unchanged. */
  ghost predicate BundleCopied(staged: Tree, r: Tree, f: Path)
  {
    && f in r && StagedCopy(f) in staged && r[f] == staged[StagedCopy(f)]
    && StagedCopy(f) in r && r[StagedCopy(f)] == staged[StagedCopy(f)]
  }

  /** The certificate of `e` holds the source file's bytes, and its link
      name, when different, is a symbolic link to it. */
  ghost predicate CertificateCopied(src: Tree, r: Tree, e: Link)
  {
    && e.file.Some? && Read(src, e.file.value).Some?
    && e.file.value in r && r[e.file.value] == File(Read(src, e.file.value).value)
    && (Render(e.name) != e.file.value ==> Render(e.name) in r && r[Render(e.name)] == Symlink(e.file.value))
  }

  /** The bundle of the entry at `k` is copied. */
  ghost predicate BundleCopiedAt(staged: Tree, r: Tree, links: Mapping, k: int)
  {
    0 <= k < |links| && links[k].file.Some? && BundleCopied(staged, r, links[k].file.value)
  }

  /** The certificate of the entry at `k` is copied and linked. */
  ghost predicate CertificateCopiedAt(src: Tree, r: Tree, links: Mapping, k: int)
  {
    0 <= k < |links| && CertificateCopied(src, r, links[k])
  }

  /** The copy-and-link loop over the mapping, in order, stopping at the
      first exception. Only keys and link names of the mapping are written;
      nothing is removed. When it runs to the end, every bundle whose staged
      copy was a regular file holds that copy, and every certificate whose
      key was present holds the source's bytes and is linked under its
      link name, unless another pair writes the same path. */
  function SyncPairs(t: Tree, src: Tree, links: Mapping): (r: Outcome)
    ensures r.stopped.Some? ==> r.stopped.value == NilPath || r.stopped.value.CannotCopy?
    ensures forall p :: p in t ==> p in r.tree
    ensures forall p :: Changed(t, r.tree, p) ==> Named(links, p)
    ensures r.stopped.None? ==>
              forall k :: BundleReady(t, links, k) ==> BundleCopiedAt(t, r.tree, links, k)
    ensures r.stopped.None? ==>
              forall k :: CertificateReady(t, links, k) ==> CertificateCopiedAt(src, r.tree, links, k)
    decreases |links|
  {
    if |links| == 0 then Outcome(t, None)
    else
      match SyncPair(t, src, links[0])
      case Failure(err) => Outcome(t, Some(err))
      case Success(next) =>
        var r := SyncPairs(next, src, links[1..]);
        assert links[0] in links;
        assert forall e :: e in links[1..] ==> e in links;
        assert forall p :: Changed(t, r.tree, p) ==> Changed(t, next, p) || Changed(next, r.tree, p);
        if r.stopped.Some? then r
        else
          BundlesCopiedStep(t, src, links, next, r.tree);
          CertificatesCopiedStep(t, src, links, next, r.tree);
          r
  }

  /** A path no entry names is left alone by the rest of the loop. */
  lemma Unnamed(links: Mapping, p: Path)
    requires WrittenOnlyBy(links, -1, p)
    ensures !Named(links, p)
  {
    if Named(links, p) {
      var e :| e in links && (Some(p) == e.file || p == Render(e.name));
    }
  }

  /** A path written only by the entry at `k > 0` is written by no entry of
      the rest of the loop but the one at `k - 1`; a path written by the
      first entry only, or by none, by no entry of the rest. */
  lemma WrittenOnlyByRest(links: Mapping, k: int, p: Path)
    requires |links| > 0 && WrittenOnlyBy(links, k, p) && k >= -1
    ensures WrittenOnlyBy(links[1..], if k <= 0 then -1 else k - 1, p)
  {
    forall j | 0 <= j < |links| - 1 && j != (if k <= 0 then -1 else k - 1)
      ensures links[1..][j].file != Some(p) && Render(links[1..][j].name) != p
    {
      assert links[1..][j] == links[j + 1];
    }
  }

  /** The first pair writes only its own key and link name. */
  lemma FirstPairLeaves(t: Tree, src: Tree, links: Mapping, next: Tree, p: Path)
    requires |links| > 0 && SyncPair(t, src, links[0]) == Success(next)
    requires links[0].file != Some(p) && Render(links[0].name) != p
    ensures p in t ==> p in next && next[p] == t[p]
  {
  }

  /** The loop's copy of a bundle, from the first pair or from the rest. */
  lemma BundlesCopiedStep(t: Tree, src: Tree, links: Mapping, next: Tree, rt: Tree)
    requires |links| > 0 && SyncPair(t, src, links[0]) == Success(next)
    requires forall p :: Changed(next, rt, p) ==> Named(links[1..], p)
    requires forall k :: BundleReady(next, links[1..], k) ==> BundleCopiedAt(next, rt, links[1..], k)
    ensures forall k :: BundleReady(t, links, k) ==> BundleCopiedAt(t, rt, links, k)
  {
    forall k | BundleReady(t, links, k)
      ensures BundleCopiedAt(t, rt, links, k)
    {
      var f := links[k].file.value;
      var staged := StagedCopy(f);
      if k == 0 {
        assert Exists(t, staged) && Read(t, staged) == Some(t[staged].content);
        assert |staged| == |f| + 1;
        WrittenOnlyByRest(links, 0, f);
        WrittenOnlyByRest(links, -1, staged);
        Unnamed(links[1..], f);
        Unnamed(links[1..], staged);
        assert !Changed(next, rt, f) && !Changed(next, rt, staged);
      } else {
        FirstPairLeaves(t, src, links, next, staged);
        FirstPairLeaves(t, src, links, next, f);
        WrittenOnlyByRest(links, k, f);
        WrittenOnlyByRest(links, -1, staged);
        assert links[1..][k - 1] == links[k];
        assert BundleReady(next, links[1..], k - 1);
      }
    }
  }

  /** The loop's copy and link of a certificate, from the first pair or
      from the rest. */
  lemma CertificatesCopiedStep(t: Tree, src: Tree, links: Mapping, next: Tree, rt: Tree)
    requires |links| > 0 && SyncPair(t, src, links[0]) == Success(next)
    requires forall p :: Changed(next, rt, p) ==> Named(links[1..], p)
    requires forall k :: CertificateReady(next, links[1..], k) ==> CertificateCopiedAt(src, rt, links[1..], k)
    ensures forall k :: CertificateReady(t, links, k) ==> CertificateCopiedAt(src, rt, links, k)
  {
    forall k | CertificateReady(t, links, k)
      ensures CertificateCopiedAt(src, rt, links, k)
    {
      var e := links[k];
      var f := e.file.value;
      if k == 0 {
        assert Exists(t, f);
        WrittenOnlyByRest(links, 0, f);
        WrittenOnlyByRest(links, 0, Render(e.name));
        Unnamed(links[1..], f);
        Unnamed(links[1..], Render(e.name));
        assert !Changed(next, rt, f) && !Changed(next, rt, Render(e.name));
      } else {
        FirstPairLeaves(t, src, links, next, f);
        WrittenOnlyByRest(links, k, f);
        WrittenOnlyByRest(links, k, Render(e.name));
        assert links[1..][k - 1] == e;
        assert CertificateReady(next, links[1..], k - 1);
      }
    }
  }

  /** The purge step, when asked for: it only removes, and it stops only
      on a `nil` key. */
  function PurgeStep(d: Desired, purge: bool): (r: Outcome)
    ensures forall p :: p in r.tree ==> p in d.target && r.tree[p] == d.target[p]
    ensures r.stopped.Some? ==> r.stopped.value == NilPath
    ensures r.stopped.Some? ==> exists e :: e in d.links && e.file.None?
  {
    if !purge then Outcome(d.target, None)
    else
      var names := Flattened(d.links);
      var r := Purge(d.target, PurgeCandidates(d.target, names, d.directories), names);
      assert r.stopped.Some? ==> None in names by {
        if r.stopped.Some? {
          var q :| q in PurgeCandidates(d.target, names, d.directories) && Protected(names, q).Failure?;
          var k :| 0 <= k < |names| && names[k].None?;
          assert names[k] in names;
        }
      }
      r
  }

  /** The copy-and-link loop, then the removal of both bundles when the
      mapping is empty. Only the bundles disappear; every other change is
      a key or link name of the mapping. */
  function CopyAll(t: Tree, d: Desired, src: Tree): (r: Outcome)
    ensures r.stopped.Some? ==> r.stopped.value == NilPath || r.stopped.value.CannotCopy?
    ensures forall p :: p in t && p != BundleName && p != StrippedBundleName ==> p in r.tree
    ensures forall p :: p in r.tree && Changed(t, r.tree, p) ==> Named(d.links, p)
    ensures r.stopped.None? && |d.links| == 0 ==> BundlesGone(r.tree)
    ensures r.stopped.None? ==>
              forall k :: BundleReady(t, d.links, k) ==> BundleCopiedAt(t, r.tree, d.links, k)
    ensures r.stopped.None? ==>
              forall k :: CertificateReady(t, d.links, k) ==> CertificateCopiedAt(src, r.tree, d.links, k)
  {
    var copied := SyncPairs(t, src, d.links);
    if copied.stopped.Some? || |d.links| > 0 then copied
    else
      NoneReady(t, d.links);
      var r := RemoveFile(RemoveFile(copied.tree, BundleName), StrippedBundleName);
      assert forall p :: p in r ==> p in copied.tree && r[p] == copied.tree[p];
      Outcome(r, None)
  }

  /** Everything after the purge: touch the canary, make the directories,
      copy and link, and remove the bundles when the mapping is empty. */
  function Rebuild(t: Tree, d: Desired, src: Tree): (r: Outcome)
    ensures r.stopped.Some? ==>
              r.stopped.value == NilPath || r.stopped.value.NotADirectory? || r.stopped.value.CannotCopy?
    ensures Canary in r.tree
    ensures forall p :: p in r.tree && Changed(t, r.tree, p) ==>
              p == Canary || (r.tree[p] == Dir && OnTheWay(d.directories, p)) || Named(d.links, p)
    ensures r.stopped.None? && |d.links| == 0 ==> BundlesGone(r.tree)
    ensures r.stopped.None? ==>
              forall k :: BundleReady(t, d.links, k) ==> BundleCopiedAt(t, r.tree, d.links, k)
    ensures r.stopped.None? ==>
              forall k :: CertificateReady(t, d.links, k) ==> CertificateCopiedAt(src, r.tree, d.links, k)
  {
    var touched := Touch(t, Canary);
    var made := MakeEach(touched, d.directories);
    if made.stopped.Some? then made
    else
      var r := CopyAll(made.tree, d, src);
      CopiesCarryOver(t, made.tree, r, d.links, src);
      assert forall p :: p in r.tree && Changed(t, r.tree, p) ==>
               Changed(t, made.tree, p) || Changed(made.tree, r.tree, p);
      r
  }

  /** `source=` on the tree `source` left behind. It stops only on a `nil`
      name, a directory in the way of `mkdir_p`, or a failed copy. The
      canary is always touched unless a `nil` key stops the purge. What
      appears or changes is the canary, a directory on the way to a listed
      one, or a key or link name of the mapping. An empty mapping leaves no
      bundle file behind, purge or not. */
  function Apply(d: Desired, purge: bool, src: Tree): (r: Outcome)
    ensures r.stopped.Some? ==>
              r.stopped.value == NilPath || r.stopped.value.NotADirectory? || r.stopped.value.CannotCopy?
    ensures (forall e :: e in d.links ==> e.file.Some?) ==> Canary in r.tree
    ensures forall p :: p in r.tree && Changed(d.target, r.tree, p) ==>
              p == Canary || (r.tree[p] == Dir && OnTheWay(d.directories, p)) || Named(d.links, p)
    ensures r.stopped.None? && |d.links| == 0 ==> BundlesGone(r.tree)
    ensures r.stopped.None? ==>
              forall k :: BundleReady(d.target, d.links, k) ==> BundleCopiedAt(d.target, r.tree, d.links, k)
    ensures r.stopped.None? ==>
              forall k :: CertificateReady(d.target, d.links, k) ==> CertificateCopiedAt(src, r.tree, d.links, k)
  {
    var purged := PurgeStep(d, purge);
    if purged.stopped.Some? then purged
    else
      var r := Rebuild(purged.tree, d, src);
      ReadySurvivesPurge(d, purge);
      assert forall p :: p in r.tree && Changed(d.target, r.tree, p) ==> Changed(purged.tree, r.tree, p);
      r
  }

  /** An empty mapping has no pair to copy. */
  lemma NoneReady(t: Tree, links: Mapping)
    requires |links| == 0
    ensures forall k :: !BundleReady(t, links, k) && !CertificateReady(t, links, k)
  {
  }

  /** A tree that keeps every entry of `t` keeps what the copy loop needs. */
  lemma ReadyKept(t: Tree, t2: Tree, links: Mapping)
    requires forall p :: p in t ==> p in t2 && t2[p] == t[p]
    ensures forall k :: BundleReady(t, links, k) ==> BundleReady(t2, links, k)
    ensures forall k :: CertificateReady(t, links, k) ==> CertificateReady(t2, links, k)
  {
  }

  /** A run from a tree `t2` that keeps every entry of `t` makes the copies
      that `t` calls for. */
  lemma CopiesCarryOver(t: Tree, t2: Tree, r: Outcome, links: Mapping, src: Tree)
    requires forall p :: p in t ==> p in t2 && t2[p] == t[p]
    requires r.stopped.None? ==>
               forall k :: BundleReady(t2, links, k) ==> BundleCopiedAt(t2, r.tree, links, k)
    requires r.stopped.None? ==>
               forall k :: CertificateReady(t2, links, k) ==> CertificateCopiedAt(src, r.tree, links, k)
    ensures r.stopped.None? ==>
              forall k :: BundleReady(t, links, k) ==> BundleCopiedAt(t, r.tree, links, k)
    ensures r.stopped.None? ==>
              forall k :: CertificateReady(t, links, k) ==> CertificateCopiedAt(src, r.tree, links, k)
  {
    ReadyKept(t, t2, links);
  }

  /** The purge keeps what the copy loop needs: a staged bundle starts
      with a dot, and a certificate key occurs in itself. */
  lemma ReadySurvivesPurge(d: Desired, purge: bool)
    requires PurgeStep(d, purge).stopped.None?
    ensures forall k :: BundleReady(d.target, d.links, k) ==> BundleReady(PurgeStep(d, purge).tree, d.links, k)
    ensures forall k :: CertificateReady(d.target, d.links, k) ==>
              CertificateReady(PurgeStep(d, purge).tree, d.links, k)
  {
    forall k | BundleReady(d.target, d.links, k)
      ensures BundleReady(PurgeStep(d, purge).tree, d.links, k)
    {
      if purge {
        PurgeSpares(d.target, d.links, d.directories, StagedCopy(d.links[k].file.value));
      }
    }
    forall k | CertificateReady(d.target, d.links, k)
      ensures CertificateReady(PurgeStep(d, purge).tree, d.links, k)
    {
      var f := d.links[k].file.value;
      if purge {
        assert d.links[k] in d.links && Contains(f, f);
        PurgeSpares(d.target, d.links, d.directories, f);
      }
    }
  }

  /** After a `source=` that ran to the end, a bundle whose staged copy
      was a regular file, and a certificate that was present and is linked
      under a different name, pass the per-pair in-sync check, provided no
      other pair writes the same paths. */
  lemma AppliedPairIsCurrent(d: Desired, purge: bool, src: Tree, k: int)
    requires || BundleReady(d.target, d.links, k)
             || (CertificateReady(d.target, d.links, k) && Render(d.links[k].name) != d.links[k].file.value)
    ensures Apply(d, purge, src).stopped.None? ==> Current(d.links[k], src, Apply(d, purge, src).tree)
  {
    var r := Apply(d, purge, src);
    if r.stopped.None? {
      if BundleReady(d.target, d.links, k) {
        CopiedBundleIsCurrent(d.target, src, r.tree, d.links[k]);
      } else {
        CopiedCertificateIsCurrent(src, r.tree, d.links[k]);
      }
    }
  }

  lemma CopiedBundleIsCurrent(staged: Tree, src: Tree, r: Tree, e: Link)
    requires e.file.Some? && IsAggregateName(e.file.value)
    requires BundleCopied(staged, r, e.file.value) && staged[StagedCopy(e.file.value)].File?
    ensures Current(e, src, r)
  {
    var f := e.file.value;
    assert Read(r, f) == Some(r[f].content) == Read(r, StagedCopy(f));
  }

  lemma CopiedCertificateIsCurrent(src: Tree, r: Tree, e: Link)
    requires e.file.Some? && !IsAggregateName(e.file.value) && Render(e.name) != e.file.value
    requires CertificateCopied(src, r, e)
    ensures Current(e, src, r)
  {
    var f := e.file.value;
    assert Read(r, f) == Read(src, f);
  }

  /** A certificate just copied and linked under a different name passes
      the in-sync check for its pair. */
  lemma SyncedPairIsCurrent(t: Tree, src: Tree, e: Link)
    requires e.file.Some? && !IsAggregateName(e.file.value) && Render(e.name) != e.file.value
    requires Exists(t, e.file.value) && SyncPair(t, src, e).Success?
    ensures Current(e, src, SyncPair(t, src, e).value)
  {
  }

  /** A bundle just copied from a staged regular file passes the in-sync
      check for its pair. */
  lemma SyncedBundleIsCurrent(t: Tree, src: Tree, e: Link)
    requires e.file.Some? && IsAggregateName(e.file.value)
    requires StagedCopy(e.file.value) in t && t[StagedCopy(e.file.value)].File?
    ensures SyncPair(t, src, e).Success?
    ensures Current(e, src, SyncPair(t, src, e).value)
  {
    var f := e.file.value;
    assert StagedCopy(f) != f by {
      assert |StagedCopy(f)| == |f| + 1;
    }
  }

  // ---------------------------------------------------------------------
  // what the purge spares
  // ---------------------------------------------------------------------

  /** A path the purge must leave alone: it occurs inside a mapped key or
      link name (the names themselves included), it starts with a dot, or it
      is a listed directory whose enclosing directories in the target are
      listed too. */
  ghost predicate Shielded(t: Tree, links: Mapping, directories: seq<Path>, p: Path)
  {
    || (exists e :: e in links && e.file.Some? && Contains(e.file.value, p))
    || (exists e :: e in links && Contains(Render(e.name), p))
    || (|p| > 0 && p[0] == '.')
    || (p in directories && forall q :: q in t && Beneath(p, q) ==> q in directories)
  }

  lemma BeneathPrefix(p: Path, q: Path)
    requires Beneath(p, q)
    ensures q <= p && |q| < |p|
  {
    assert p[..|q|] == (q + "/")[..|q|];
  }

  /** No name contains a path that starts with an unprotected candidate. */
  lemma OutsideNames(names: seq<Option<Path>>, q: Path, p: Path)
    requires Protected(names, q) == Success(false) && q <= p
    ensures forall n :: n in names ==> n.Some? && !Contains(n.value, p)
  {
    forall n | n in names
      ensures n.Some? && !Contains(n.value, p)
    {
      var k :| 0 <= k < |names| && names[k] == n;
      if Contains(n.value, p) {
        ContainsPrefix(n.value, p, q);
      }
    }
  }

  /** A path that is an unprotected purge candidate, or lies beneath one,
      is not shielded. */
  lemma PrefixNotShielded(t: Tree, links: Mapping, directories: seq<Path>, q: Path, p: Path)
    requires q in PurgeCandidates(t, Flattened(links), directories)
    requires Protected(Flattened(links), q) == Success(false)
    requires p == q || Beneath(p, q)
    ensures !Shielded(t, links, directories, p)
  {
    var names := Flattened(links);
    if p != q {
      BeneathPrefix(p, q);
    }
    OutsideNames(names, q, p);
    forall e | e in links
      ensures (e.file.Some? ==> !Contains(e.file.value, p)) && !Contains(Render(e.name), p)
    {
      assert e.file in names && Some(Render(e.name)) in names;
    }
    assert p[0] == q[0] && q[0] != '.';
  }

  /** An unprotected purge candidate is neither a shielded path nor an
      enclosing directory of one. */
  lemma CandidateMisses(t: Tree, links: Mapping, directories: seq<Path>, q: Path, p: Path)
    requires q in PurgeCandidates(t, Flattened(links), directories)
    requires Protected(Flattened(links), q) == Success(false)
    requires Shielded(t, links, directories, p)
    ensures p != q && !Beneath(p, q)
  {
    if p == q || Beneath(p, q) {
      PrefixNotShielded(t, links, directories, q, p);
    }
  }

  /** The purge keeps every shielded path, untouched. */
  lemma PurgeSpares(t: Tree, links: Mapping, directories: seq<Path>, p: Path)
    requires p in t && Shielded(t, links, directories, p)
    ensures var names := Flattened(links);
      var r := Purge(t, PurgeCandidates(t, names, directories), names);
      p in r.tree && r.tree[p] == t[p]
  {
    var names := Flattened(links);
    var cands := PurgeCandidates(t, names, directories);
    forall q | q in cands && Protected(names, q) == Success(false)
      ensures p != q && !Beneath(p, q)
    {
      CandidateMisses(t, links, directories, q, p);
    }
  }

  /** Every shielded path of the target survives the whole run, except the
      bundles, which an empty mapping removes. */
  lemma ApplyKeepsShielded(d: Desired, purge: bool, src: Tree, p: Path)
    requires p in d.target && Shielded(d.target, d.links, d.directories, p)
    ensures p in Apply(d, purge, src).tree || (|d.links| == 0 && (p == BundleName || p == StrippedBundleName))
  {
    if purge {
      PurgeSpares(d.target, d.links, d.directories, p);
    }
  }

  // ---------------------------------------------------------------------
  // a fresh target never receives certificates
  // ---------------------------------------------------------------------

  /** No step before the copy loop creates `f`: it does not start with a
      dot, and `mkdir_p` of no listed directory passes through it. */
  predicate NeverCreated(f: Path, directories: seq<Path>)
  {
    |f| > 0 && f[0] != '.' && forall dd :: dd in directories ==> f !in Ancestry(dd)
  }

  /** The tree holds no symbolic link, and no certificate key of the
      mapping is present in it. */
  ghost predicate NoCertificateYet(t: Tree, links: Mapping)
  {
    && (forall p :: p in t ==> !t[p].Symlink?)
    && (forall e :: e in links && e.file.Some? && !IsAggregateName(e.file.value) ==> e.file.value !in t)
  }

  /** One pair on such a tree: a certificate is skipped, a bundle is
      written as a regular file. */
  lemma SyncPairKeepsNoCertificate(t: Tree, src: Tree, links: Mapping, e: Link)
    requires NoCertificateYet(t, links) && e in links
    requires SyncPair(t, src, e).Success?
    ensures NoCertificateYet(SyncPair(t, src, e).value, links)
  {
    var next := SyncPair(t, src, e).value;
    if e.file.Some? && !IsAggregateName(e.file.value) {
      assert next == t;
    } else {
      assert forall p :: Changed(t, next, p) ==> IsAggregateName(p);
      assert forall p :: p in next && Changed(t, next, p) ==> next[p].File?;
    }
  }

  lemma {:induction false} SyncPairsKeepNoCertificate(t: Tree, src: Tree, todo: Mapping, links: Mapping)
    requires NoCertificateYet(t, links)
    requires forall e :: e in todo ==> e in links
    ensures NoCertificateYet(SyncPairs(t, src, todo).tree, links)
    decreases |todo|
  {
    if |todo| > 0 {
      assert todo[0] in todo;
      match SyncPair(t, src, todo[0])
      case Failure(_) =>
      case Success(next) =>
        SyncPairKeepsNoCertificate(t, src, links, todo[0]);
        assert forall e :: e in todo[1..] ==> e in todo;
        SyncPairsKeepNoCertificate(next, src, todo[1..], links);
    }
  }

  /** Before the copy loop, a target that held only dot-files holds no
      link and no certificate key. */
  lemma ScaffoldingHoldsNoCertificate(target: Tree, links: Mapping, directories: seq<Path>)
    requires forall p :: p in target ==> |p| > 0 && p[0] == '.' && !target[p].Symlink?
    requires forall e :: e in links && e.file.Some? && !IsAggregateName(e.file.value) ==>
               NeverCreated(e.file.value, directories)
    ensures NoCertificateYet(MakeEach(Touch(target, Canary), directories).tree, links)
  {
    var touched := Touch(target, Canary);
    assert forall p :: p in touched ==> |p| > 0 && p[0] == '.' && !touched[p].Symlink?;
    var made := MakeEach(touched, directories).tree;
    forall e | e in links && e.file.Some? && !IsAggregateName(e.file.value)
      ensures e.file.value !in made
    {
      assert NeverCreated(e.file.value, directories);
      assert !OnTheWay(directories, e.file.value);
    }
  }

  /** The steps after the purge add no link and no certificate key to a
      tree that had none once the directories are made. */
  lemma RebuildKeepsNoCertificate(t: Tree, d: Desired, src: Tree)
    requires NoCertificateYet(MakeEach(Touch(t, Canary), d.directories).tree, d.links)
    ensures NoCertificateYet(Rebuild(t, d, src).tree, d.links)
  {
    var made := MakeEach(Touch(t, Canary), d.directories);
    if made.stopped.None? {
      var copied := SyncPairs(made.tree, src, d.links);
      SyncPairsKeepNoCertificate(made.tree, src, d.links, d.links);
      if copied.stopped.None? && |d.links| == 0 {
        var r := RemoveFile(RemoveFile(copied.tree, BundleName), StrippedBundleName);
        assert forall p :: p in r ==> p in copied.tree && r[p] == copied.tree[p];
      }
    }
  }

  /** sync.rb checks the target, not the source, before copying a
      certificate: on a target holding only dot-files, no certificate is
      ever copied and no link is ever made. */
  lemma ApplyToFreshTarget(d: Desired, purge: bool, src: Tree)
    requires forall p :: p in d.target ==> |p| > 0 && p[0] == '.' && !d.target[p].Symlink?
    requires forall e :: e in d.links && e.file.Some? && !IsAggregateName(e.file.value) ==>
               NeverCreated(e.file.value, d.directories)
    ensures NoCertificateYet(Apply(d, purge, src).tree, d.links)
  {
    var purged := PurgeStep(d, purge);
    if purged.stopped.None? {
      ScaffoldingHoldsNoCertificate(purged.tree, d.links, d.directories);
      RebuildKeepsNoCertificate(purged.tree, d, src);
    }
  }

  /** Every directory on the way to a directory of a well-formed tree is a
      directory of it. */
  lemma {:induction false} AncestryOfDirectory(t: Tree, dd: Path)
    requires WellFormed(t) && dd in t && t[dd] == Dir
    ensures forall a :: a in Ancestry(dd) ==> a in t && t[a] == Dir
    decreases |dd|
  {
    if |dd| > 0 && Dirname(dd) != "" {
      AncestryOfDirectory(t, Dirname(dd));
    }
  }

  /** `source` on a missing target stages the two bundles and nothing
      else. */
  lemma FreshStagingOnlyDotFiles(cs: seq<Certificate>)
    ensures var staged := Stage(map[], cs);
      forall p :: p in staged ==> |p| > 0 && p[0] == '.' && !staged[p].Symlink?
  {
  }

  /** In a mapping whose certificate keys are files of a well-formed
      source, no such key is a dot-path or a directory on the way to one of
      the source's directories. */
  lemma CertificateKeysNeverCreated(t: Tree, parse: Parser, links: Mapping, directories: seq<Path>)
    requires WellFormed(t)
    requires forall dd :: dd in directories ==> dd in t && t[dd] == Dir
    requires forall e :: e in links && e.name.Aggregate? ==> e == BundleLink || e == StrippedBundleLink
    requires forall e :: e in links && e.name.Hashed? && e.file.Some? ==> IsCertificateFile(t, e.file.value, parse)
    ensures forall e :: e in links && e.file.Some? && !IsAggregateName(e.file.value) ==>
              NeverCreated(e.file.value, directories)
  {
    forall dd | dd in directories {
      AncestryOfDirectory(t, dd);
    }
    AggregateNamesMatch();
  }

  /** Running `source` and then `source=` against a missing target leaves
      the target without any certificate of a well-formed source and
      without any link. */
  lemma FreshTargetGetsNoCertificates(t: Tree, parse: Parser, purge: bool, d: Desired)
    requires WellFormed(t)
    requires ScanSource(t, map[], parse) == Success(d)
    ensures var r := Apply(d, purge, t);
      && (forall p :: p in r.tree ==> !r.tree[p].Symlink?)
      && (forall f :: IsCertificateFile(t, f, parse) ==> f !in r.tree)
  {
    FreshStagingOnlyDotFiles(Certificates(t, parse));
    CertificateKeysNeverCreated(t, parse, d.links, d.directories);
    ApplyToFreshTarget(d, purge, t);
    forall f | IsCertificateFile(t, f, parse)
      ensures f !in Apply(d, purge, t).tree
    {
      assert Some(f) in Keys(d.links);
      var e :| e in d.links && e.file == Some(f);
    }
  }
}

=== FILE: filetree.dfy ===
/** The part of the POSIX file system the providers see: a directory tree
    as a map from relative path to entry, symbolic-link resolution as
    `File.file?`, `File.directory?` and `File.exist?` perform it, the
    listing the recursive `Dir.glob` returns, and the tree edits of `FileUtils`
    (`rm_rf`, `rm_f`, `mkdir_p`, `touch`, `cp`, `ln_sf`). Ownership,
    permissions and timestamps are not part of this model. */
module FileTree {
  import opened Wrappers
  import opened Text

  /** What one path holds, read without following symbolic links. */
  datatype Entry = File(content: string) | Dir | Symlink(target: string)

  /** Every entry beneath one directory, keyed by its path relative to it. */
  type Tree = map<Path, Entry>

  /** What a directory name handed to a provider refers to: nothing, in a
      directory that exists; nothing, and its parent directory is missing
      too; something other than a directory; or a directory. */
  datatype Root = Absent | Orphaned | NonDirectory | Directory(tree: Tree)

  /** `Dir.mkdir` (not `mkdir_p`) can make, or need not make, the target. */
  predicate Usable(target: Root)
  {
    target.Absent? || target.Directory?
  }

  /** The tree of a target directory, which the providers create empty
      when it is missing. */
  function TargetTree(target: Root): Tree
    requires Usable(target)
  {
    if target.Absent? then map[] else target.tree
  }

  /** The exceptions the providers raise, by cause. */
  datatype Error =
    | InvalidSource              // the source directory does not exist or is not one
    | TargetNotDirectory         // `Dir.mkdir` / `Dir.chdir` on the target fails
    | TargetParentMissing        // `Dir.mkdir` on a target whose parent is missing (ENOENT)
    | NotADirectory(path: Path)  // `mkdir_p` meets a path component that is not a directory
    | SlotOutOfRange(path: Path) // `Array#insert` with an index before the start
    | NilPath                    // `nil` used where a path name is needed
    | CannotCopy(path: Path)     // `cp` from a file that is missing or not a regular file
    | MissingSourceInfo          // an attribute read from source information that is `nil`
    | StagingIsDirectory(path: Path) // `File.open` for writing on a directory (EISDIR)

  /** Linux gives up resolving a path after this many symbolic links (ELOOP). */
  const MaxSymlinkHops: nat := 40

  /** The recursive `Dir.glob` lists a path only when none of its components
      starts with a dot. */
  predicate Visible(p: Path)
  {
    |p| > 0 && p[0] != '.' && NoHiddenComponent(p)
  }

  /** No slash in `p` is followed by a dot. */
  predicate NoHiddenComponent(p: Path)
    decreases |p|
  {
    |p| < 2 || (p[..2] != "/." && NoHiddenComponent(p[1..]))
  }

  /** The paths the recursive `Dir.glob` returns inside a tree. */
  function Glob(t: Tree): (r: set<Path>)
    ensures forall p :: p in r <==> p in t && Visible(p)
  {
    set p | p in t && Visible(p)
  }

  /** The same listing, in the ascending byte order of `Array#sort`. */
  function Listing(t: Tree): (r: seq<Path>)
    ensures StrictlySorted(r)
    ensures forall p :: p in r <==> p in t && Visible(p)
  {
    SortedPaths(Glob(t))
  }

  /** `File.dirname` for a relative path: everything before the last slash. */
  function Dirname(p: Path): (r: Path)
    ensures |p| > 0 ==> |r| < |p|
    ensures r <= p
  {
    if |p| == 0 then ""
    else if p[|p| - 1] == '/' then p[..|p| - 1]
    else Dirname(p[..|p| - 1])
  }

  /** Where a relative symbolic link stored at `link` points to inside the
      tree; an absolute target lies outside it. */
  function LinkDestination(link: Path, target: string): Option<Path>
  {
    if |target| > 0 && target[0] == '/' then None
    else if Dirname(link) == "" then Some(target)
    else Some(Dirname(link) + "/" + target)
  }

  /** The entry reached from `p` by following at most `hops` symbolic links;
      `None` for a missing path, a dangling link or a link loop. */
  function Resolve(t: Tree, p: Path, hops: nat): (r: Option<Entry>)
    ensures r.Some? ==> !r.value.Symlink?
    ensures p in t && !t[p].Symlink? ==> r == Some(t[p])
    ensures p !in t ==> r.None?
    decreases hops
  {
    if p !in t then None
    else match t[p]
      case Symlink(target) =>
        if hops == 0 then None
        else (
          match LinkDestination(p, target)
          case None => None
          case Some(q) => Resolve(t, q, hops - 1))
      case e => Some(e)
  }

  /** `File.file?`: a regular file, possibly reached through symbolic links. */
  predicate IsFile(t: Tree, p: Path)
  {
    Resolve(t, p, MaxSymlinkHops).Some? && Resolve(t, p, MaxSymlinkHops).value.File?
  }

  /** `File.directory?`, following symbolic links. */
  predicate IsDirectory(t: Tree, p: Path)
  {
    Resolve(t, p, MaxSymlinkHops) == Some(Dir)
  }

  /** `File.exist?`, following symbolic links. */
  predicate Exists(t: Tree, p: Path)
  {
    Resolve(t, p, MaxSymlinkHops).Some?
  }

  /** The bytes reading `p` yields, when it names a regular file. */
  function Read(t: Tree, p: Path): (r: Option<string>)
    ensures r.Some? <==> IsFile(t, p)
  {
    match Resolve(t, p, MaxSymlinkHops)
    case Some(File(c)) => Some(c)
    case _ => None
  }

  /** Every proper ancestor of every entry is a directory entry. */
  predicate WellFormed(t: Tree)
  {
    forall p :: p in t && Dirname(p) != "" ==> Dirname(p) in t && t[Dirname(p)] == Dir
  }

  /** `p` lies inside the directory `q`. */
  predicate Beneath(p: Path, q: Path)
  {
    q + "/" <= p
  }

  /** `FileUtils.rm_rf(q)`: `q` and everything beneath it disappear; a
      missing `q` is not an error. */
  function RemoveTree(t: Tree, q: Path): (r: Tree)
    ensures forall p :: p in r <==> p in t && p != q && !Beneath(p, q)
    ensures forall p :: p in r ==> r[p] == t[p]
  {
    map p | p in t && p != q && !Beneath(p, q) :: t[p]
  }

  /** `FileUtils.rm_f(p)`: removes a file or link; silently leaves a
      directory or a missing path alone. */
  function RemoveFile(t: Tree, p: Path): (r: Tree)
    ensures p in t && t[p] == Dir ==> r == t
    ensures p in r ==> r[p] == Dir
    ensures forall q :: q != p ==> (q in r <==> q in t) && (q in r ==> r[q] == t[q])
  {
    if p in t && t[p] != Dir then t - {p} else t
  }

  /** `FileUtils.touch(p)`: creates an empty file when nothing is there;
      otherwise only timestamps change, and those are not modelled. */
  function Touch(t: Tree, p: Path): (r: Tree)
    ensures p in r
    ensures p in t ==> r == t
    ensures p !in t ==> r[p] == File("")
    ensures forall q :: q != p ==> (q in r <==> q in t) && (q in r ==> r[q] == t[q])
  {
    if p in t then t else t[p := File("")]
  }

  /** The path itself preceded by every proper ancestor, outermost first:
      the directories `mkdir_p` makes sure of. */
  function Ancestry(d: Path): (r: seq<Path>)
    ensures |r| >= 1 && r[|r| - 1] == d
    decreases |d|
  {
    if |d| == 0 || Dirname(d) == "" then [d] else Ancestry(Dirname(d)) + [d]
  }

  /** The tree an operation leaves behind, and the exception that stopped
      it, if one did: the providers change the filesystem step by step, so
      what was done before an exception stays done. */
  datatype Outcome = Outcome(tree: Tree, stopped: Option<Error>)

  /** Creating each listed directory in turn, as `mkdir_p` does: an existing
      directory (or link to one) is kept, anything else in the way raises.
      Nothing that existed changes; what appears is a listed directory. */
  function MakeDirectories(t: Tree, ds: seq<Path>): (r: Outcome)
    ensures r.stopped.None? ==> forall d :: d in ds ==> d in r.tree
    ensures r.stopped.Some? ==> r.stopped.value.NotADirectory? && r.stopped.value.path in ds
    ensures forall p :: p in t ==> p in r.tree && r.tree[p] == t[p]
    ensures forall p :: p in r.tree && p !in t ==> p in ds && r.tree[p] == Dir
    decreases |ds|
  {
    if |ds| == 0 then Outcome(t, None)
    else
      var d := ds[0];
      if d !in t then MakeDirectories(t[d := Dir], ds[1..])
      else if IsDirectory(t, d) then MakeDirectories(t, ds[1..])
      else Outcome(t, Some(NotADirectory(d)))
  }

  /** `FileUtils.mkdir_p(d)`. */
  function MkdirP(t: Tree, d: Path): (r: Outcome)
    ensures r.stopped.None? ==> d in r.tree
    ensures forall p :: p in t ==> p in r.tree && r.tree[p] == t[p]
    ensures forall p :: p in r.tree && p !in t ==> p in Ancestry(d) && r.tree[p] == Dir
  {
    MakeDirectories(t, Ancestry(d))
  }
}

=== FILE: hashindex.dfy ===
/** The hash indexer inside `source` of the directory sync provider
    (lib/puppet/provider/pki_cert_sync/sync.rb): each parsed certificate goes
    into the bucket of its subject hash, a file already named
    `<hash>.<n>` is inserted at slot `n` with Ruby `Array#insert` and any
    other file takes the first empty slot; the buckets are then numbered
    into the ordered file-to-link mapping, and the two aggregate bundle
    names are added, each mapped to itself, when the mapping is not empty. */
module HashIndex {
  import opened Wrappers
  import opened Text
  import opened FileTree

  const BundleName: string := "cacerts.pem"
  const StrippedBundleName: string := "cacerts_no_headers.pem"

  /** One line matched by `cacerts(_no_headers)?.pem`, where the dot
      stands for any character but a newline. */
  predicate AggregateLine(l: string)
  {
    || (|l| == 11 && l[..7] == "cacerts" && l[7] != '\n' && l[8..] == "pem")
    || (|l| == 22 && l[..18] == "cacerts_no_headers" && l[18] != '\n' && l[19..] == "pem")
  }

  /** The name matches `/^cacerts(_no_headers)?.pem$/`. In a Ruby regular
      expression `^` and `$` match at every line boundary, so the pattern
      matches when one line of the name matches it. */
  predicate IsAggregateName(s: string)
  {
    exists i :: 0 <= i < |SplitAll(s, '\n')| && AggregateLine(SplitAll(s, '\n')[i])
  }

  lemma AggregateNamesMatch()
    ensures IsAggregateName(BundleName)
    ensures IsAggregateName(StrippedBundleName)
  {
    BundleLine(BundleName);
    StrippedBundleLine(StrippedBundleName);
  }

  lemma BundleLine(l: string)
    requires l == BundleName
    ensures IsAggregateName(l)
  {
    assert l[..7] == "cacerts" && l[7] == '.' && l[8..] == "pem";
    LineMatches(l);
  }

  lemma StrippedBundleLine(l: string)
    requires l == StrippedBundleName
    ensures IsAggregateName(l)
  {
    assert l[..18] == "cacerts_no_headers" && l[18] == '.' && l[19..] == "pem";
    LineMatches(l);
  }

  lemma LineMatches(l: string)
    requires AggregateLine(l)
    ensures IsAggregateName(l)
  {
    assert '\n' !in l by {
      forall k | 0 <= k < |l|
        ensures l[k] != '\n'
      {
        if |l| == 11 {
          if k < 7 {
            assert l[k] == l[..7][k];
          } else if k > 7 {
            assert l[k] == l[8..][k - 8];
          }
        } else {
          if k < 18 {
            assert l[k] == l[..18][k];
          } else if k > 18 {
            assert l[k] == l[19..][k - 19];
          }
        }
      }
    }
    SplitSingleField(l, '\n');
    assert SplitAll(l, '\n')[0] == l;
  }

  /** A subject hash as `sprintf("%08x")` renders one. */
  predicate ValidHash(h: string)
  {
    |h| >= 8 && forall i :: 0 <= i < |h| ==> IsHexDigit(h[i])
  }

  /** The link name a mapping entry carries: `"#{cert_hash}.#{i}"` for a
      certificate, the bundle's own name for an aggregate entry. */
  datatype LinkName = Hashed(hash: string, index: nat) | Aggregate(name: string)

  function Render(n: LinkName): string
  {
    match n
    case Hashed(h, i) => h + "." + Decimal(i)
    case Aggregate(s) => s
  }

  /** A link name the indexer can produce. */
  predicate WellFormedName(n: LinkName)
  {
    match n
    case Hashed(h, _) => ValidHash(h)
    case Aggregate(s) => s == BundleName || s == StrippedBundleName
  }

  /** How a well-formed link name is laid out: a hashed name is the hash,
      a dot and the decimal counter, with no dot inside the hash; position 4
      holds a hexadecimal digit exactly for hashed names (the bundle names
      have an `r` there). */
  lemma NameShape(n: LinkName)
    requires WellFormedName(n)
    ensures |Render(n)| > 4
    ensures IsHexDigit(Render(n)[4]) <==> n.Hashed?
    ensures n.Hashed? ==> |Render(n)| > |n.hash| && Render(n)[|n.hash|] == '.'
                          && Render(n)[..|n.hash|] == n.hash
                          && Render(n)[|n.hash| + 1..] == Decimal(n.index)
                          && forall k :: 0 <= k < |n.hash| ==> Render(n)[k] != '.'
  {
    var s := Render(n);
    if n.Hashed? {
      assert s[4] == n.hash[4];
      assert forall k :: 0 <= k < |n.hash| ==> s[k] == n.hash[k];
    } else {
      assert s[4] == 'r';
    }
  }

  /** Distinct link names render as distinct strings: a hash has no dot, so
      the first dot fixes where the hash ends, and the counter is read back
      from its decimal digits; an aggregate name has an `r` where a hash
      has a hexadecimal digit. */
  lemma RenderInjective(a: LinkName, b: LinkName)
    requires WellFormedName(a) && WellFormedName(b)
    requires Render(a) == Render(b)
    ensures a == b
  {
    NameShape(a);
    NameShape(b);
    if a.Hashed? {
      assert b.Hashed?;
      assert |a.hash| <= |b.hash| by {
        assert Render(a)[|a.hash|] == '.';
      }
      assert |b.hash| <= |a.hash| by {
        assert Render(b)[|b.hash|] == '.';
      }
      assert a.hash == b.hash;
      DecimalInjective(a.index, b.index);
    } else {
      assert b.Aggregate?;
    }
  }

  /** One entry of the ordered mapping `@to_link`: a file (or `nil`, for a
      bucket slot nothing filled) and its link name. */
  datatype Link = Link(file: Option<Path>, name: LinkName)

  type Mapping = seq<Link>

  predicate UniqueKeys(m: Mapping)
  {
    forall a, b :: 0 <= a < b < |m| ==> m[a].file != m[b].file
  }

  predicate DistinctNames(m: Mapping)
  {
    forall a, b :: 0 <= a < b < |m| ==> m[a].name != m[b].name
  }

  function Keys(m: Mapping): set<Option<Path>>
  {
    set e | e in m :: e.file
  }

  // ---------------------------------------------------------------------
  // buckets
  // ---------------------------------------------------------------------

  /** A bucket's slots; `None` is a `nil` left by `Array#insert` padding. */
  type Slots = seq<Option<Path>>

  datatype Bucket = Bucket(hash: string, slots: Slots)

  function Nils(n: nat): (r: Slots)
    ensures |r| == n
    ensures forall i :: 0 <= i < n ==> r[i].None?
  {
    if n == 0 then [] else [None] + Nils(n - 1)
  }

  /** Ruby `Array#insert(index, x)`: a non-negative index past the end pads
      with `nil`; a negative index counts from the end, `-1` appending;
      an index before the start raises `IndexError` (here `None`). The
      files already held stay, and `x` is added. */
  function InsertAt(slots: Slots, index: int, x: Path): (r: Option<Slots>)
    ensures r.None? <==> index < -(|slots| + 1)
    ensures r.Some? ==> |r.value| == if 0 <= index && index > |slots| then index + 1 else |slots| + 1
    ensures r.Some? ==> forall y :: Some(y) in r.value <==> Some(y) in slots || y == x
    ensures r.Some? && 0 <= index ==> index < |r.value| && r.value[index] == Some(x)
    ensures r.Some? && index < 0 ==> r.value[|slots| + index + 1] == Some(x)
    ensures r.Some? && 0 <= index <= |slots| ==>
              r.value[..index] == slots[..index] && r.value[index + 1..] == slots[index..]
    ensures r.Some? && index > |slots| ==>
              r.value[..|slots|] == slots && forall k :: |slots| <= k < index ==> r.value[k].None?
    ensures r.Some? && index < 0 ==>
              var pos := |slots| + index + 1;
              r.value[..pos] == slots[..pos] && r.value[pos + 1..] == slots[pos..]
  {
    if index >= 0 then
      if index <= |slots| then
        var s := slots[..index] + [Some(x)] + slots[index..];
        assert slots == slots[..index] + slots[index..];
        Some(s)
      else
        Some(slots + Nils(index - |slots|) + [Some(x)])
    else
      var pos := |slots| + index + 1;
      if pos < 0 then None
      else
        assert slots == slots[..pos] + slots[pos..];
        Some(slots[..pos] + [Some(x)] + slots[pos..])
  }

  /** The first `nil` slot, or the end of the bucket. */
  function FirstFree(slots: Slots): (i: nat)
    ensures i <= |slots|
    ensures i < |slots| ==> slots[i].None?
    ensures forall k :: 0 <= k < i ==> slots[k].Some?
  {
    if |slots| == 0 || slots[0].None? then 0 else 1 + FirstFree(slots[1..])
  }

  /** `i += 1 while !bucket[i].nil?; bucket[i] = x`: the first free slot
      receives `x`, the files already held stay. */
  function Fill(slots: Slots, x: Path): (r: Slots)
    ensures |r| == if FirstFree(slots) < |slots| then |slots| else |slots| + 1
    ensures forall y :: Some(y) in r <==> Some(y) in slots || y == x
    ensures r[FirstFree(slots)] == Some(x)
    ensures forall k :: 0 <= k < |slots| && k != FirstFree(slots) ==> r[k] == slots[k]
  {
    var i := FirstFree(slots);
    if i < |slots| then
      var r := slots[i := Some(x)];
      assert r[i] == Some(x);
      assert forall y :: Some(y) in r && y != x ==> Some(y) in slots by {
        forall y | Some(y) in r && y != x
          ensures Some(y) in slots
        {
          var k :| 0 <= k < |r| && r[k] == Some(y);
          assert slots[k] == Some(y);
        }
      }
      assert forall y :: Some(y) in slots && y != x ==> Some(y) in r by {
        forall y | Some(y) in slots && y != x
          ensures Some(y) in r
        {
          var k :| 0 <= k < |slots| && slots[k] == Some(y);
          assert r[k] == Some(y);
        }
      }
      r
    else slots + [Some(x)]
  }

  /** The position of the bucket for `hash`, or the number of buckets. */
  function BucketIndex(bs: seq<Bucket>, hash: string): (i: nat)
    ensures i <= |bs|
    ensures i < |bs| ==> bs[i].hash == hash
    ensures forall k :: 0 <= k < i ==> bs[k].hash != hash
  {
    if |bs| == 0 || bs[0].hash == hash then 0 else 1 + BucketIndex(bs[1..], hash)
  }

  /** Every bucket holds at least one file: buckets are created by the
      file that needs them. */
  predicate Occupied(bs: seq<Bucket>)
  {
    forall i :: 0 <= i < |bs| ==> HasFile(bs[i].slots)
  }

  predicate HasFile(slots: Slots)
  {
    exists k :: 0 <= k < |slots| && slots[k].Some?
  }

  predicate DistinctHashes(bs: seq<Bucket>)
  {
    forall a, b :: 0 <= a < b < |bs| ==> bs[a].hash != bs[b].hash
  }

  /** Some bucket for `hash` holds `f`. */
  predicate Holds(bs: seq<Bucket>, hash: string, f: Path)
  {
    exists i :: 0 <= i < |bs| && bs[i].hash == hash && Some(f) in bs[i].slots
  }

  /** `file.split('.')`: the slot a file named `<hash>.<suffix>...` asks
      for is `suffix.to_i`, and 0 when there is no suffix (`nil.to_i`). */
  function RequestedSlot(fields: seq<string>): int
  {
    if |fields| >= 2 then ToI(fields[1]) else 0
  }

  /** The slot the name of `file` asks for: `file.split('.')[1].to_i`. */
  function SlotAsked(file: Path): int
  {
    RequestedSlot(RubySplit(file, '.'))
  }

  /** The slots of the bucket for `hash`, empty when there is none yet. */
  function BucketSlots(bs: seq<Bucket>, hash: string): Slots
  {
    var i := BucketIndex(bs, hash);
    if i < |bs| then bs[i].slots else []
  }

  /** Every file named after its hash asks for a slot at or after the start. */
  predicate NoSlotBeforeStart(parsed: seq<(Path, string)>)
  {
    forall k :: 0 <= k < |parsed| && NamedAfterHash(parsed[k].0, parsed[k].1) ==> SlotAsked(parsed[k].0) >= 0
  }

  /** The name of `file` up to its first dot is `hash`. */
  predicate NamedAfterHash(file: Path, hash: string)
  {
    var fields := RubySplit(file, '.');
    |fields| > 0 && fields[0] == hash
  }

  /** The bucket list with position `i` set to `b`, or with `b` appended
      when `i` is the number of buckets. */
  function SetBucket(bs: seq<Bucket>, i: nat, b: Bucket): (r: seq<Bucket>)
    requires i <= |bs|
    ensures |r| == if i < |bs| then |bs| else |bs| + 1
    ensures r[i] == b
    ensures forall k :: 0 <= k < |bs| && k != i ==> r[k] == bs[k]
  {
    if i < |bs| then bs[i := b] else bs + [b]
  }

  /** Replacing the bucket for `hash` by one holding one more file adds
      exactly that file under that hash. */
  lemma SetBucketHolds(bs: seq<Bucket>, hash: string, s: Slots, file: Path)
    requires var i := BucketIndex(bs, hash);
      forall y :: Some(y) in s <==> (i < |bs| && Some(y) in bs[i].slots) || y == file
    ensures var r := SetBucket(bs, BucketIndex(bs, hash), Bucket(hash, s));
      forall h, f :: Holds(r, h, f) <==> Holds(bs, h, f) || (h == hash && f == file)
  {
    var i := BucketIndex(bs, hash);
    var r := SetBucket(bs, i, Bucket(hash, s));
    forall h, f
      ensures Holds(r, h, f) <==> Holds(bs, h, f) || (h == hash && f == file)
    {
      if Holds(r, h, f) {
        var k :| 0 <= k < |r| && r[k].hash == h && Some(f) in r[k].slots;
        if k != i {
          assert bs[k] == r[k];
          assert Holds(bs, h, f);
        } else if f != file {
          assert Some(f) in s;
          assert bs[i].hash == h && Some(f) in bs[i].slots;
          assert Holds(bs, h, f);
        }
      }
      if Holds(bs, h, f) {
        var k :| 0 <= k < |bs| && bs[k].hash == h && Some(f) in bs[k].slots;
        assert r[k].hash == h && Some(f) in r[k].slots;
      }
      if h == hash && f == file {
        assert r[i].hash == h && Some(f) in r[i].slots;
      }
    }
  }

  /** The replacement keeps bucket hashes distinct and buckets occupied. */
  lemma SetBucketShape(bs: seq<Bucket>, hash: string, s: Slots, file: Path)
    requires DistinctHashes(bs)
    requires Some(file) in s
    ensures var r := SetBucket(bs, BucketIndex(bs, hash), Bucket(hash, s));
      DistinctHashes(r) && (Occupied(bs) ==> Occupied(r))
  {
    var i := BucketIndex(bs, hash);
    var r := SetBucket(bs, i, Bucket(hash, s));
    forall a, b | 0 <= a < b < |r|
      ensures r[a].hash != r[b].hash
    {
      if a != i && b != i {
        assert r[a] == bs[a] && r[b] == bs[b];
      } else if a == i {
        assert r[b] == bs[b];
      } else {
        assert r[a] == bs[a];
      }
    }
    if Occupied(bs) {
      var w :| 0 <= w < |s| && s[w] == Some(file);
      forall j | 0 <= j < |r|
        ensures HasFile(r[j].slots)
      {
        if j == i {
          assert r[j].slots == s;
          assert 0 <= w < |r[j].slots| && r[j].slots[w].Some?;
        } else {
          assert r[j] == bs[j];
        }
      }
    }
  }

  /** Files one certificate's slot into its bucket, creating the bucket
      (`||= Array.new`) on first use. It fails exactly when the file is
      named after its hash and asks for a slot before the start of the
      bucket. */
  function Place(bs: seq<Bucket>, file: Path, hash: string): (r: Result<seq<Bucket>, Error>)
    requires DistinctHashes(bs)
    ensures r.Failure? <==> NamedAfterHash(file, hash) && SlotAsked(file) < -(|BucketSlots(bs, hash)| + 1)
    ensures r.Failure? ==> r.error == SlotOutOfRange(file)
    ensures r.Success? ==> DistinctHashes(r.value)
    ensures r.Success? && Occupied(bs) ==> Occupied(r.value)
    ensures r.Success? ==> |r.value| <= |bs| + 1
    ensures r.Success? ==> forall h, f :: Holds(r.value, h, f) <==> Holds(bs, h, f) || (h == hash && f == file)
  {
    var i := BucketIndex(bs, hash);
    var slots := BucketSlots(bs, hash);
    var fields := RubySplit(file, '.');
    var placed := if |fields| > 0 && fields[0] == hash then InsertAt(slots, RequestedSlot(fields), file)
                  else Some(Fill(slots, file));
    match placed
    case None => Failure(SlotOutOfRange(file))
    case Some(s) =>
      SetBucketHolds(bs, hash, s, file);
      SetBucketShape(bs, hash, s, file);
      Success(SetBucket(bs, i, Bucket(hash, s)))
  }

  /** All parsed certificates, in scan order, placed into buckets. A
      failure names a file named after its hash that asks for a slot before
      the start; so when no file does, it succeeds. */
  function Bucketize(bs: seq<Bucket>, parsed: seq<(Path, string)>): (r: Result<seq<Bucket>, Error>)
    requires DistinctHashes(bs)
    ensures r.Failure? ==> exists k :: 0 <= k < |parsed| && r.error == SlotOutOfRange(parsed[k].0)
                                       && NamedAfterHash(parsed[k].0, parsed[k].1) && SlotAsked(parsed[k].0) < -1
    ensures NoSlotBeforeStart(parsed) ==> r.Success?
    ensures r.Success? ==> DistinctHashes(r.value)
    ensures r.Success? && Occupied(bs) ==> Occupied(r.value)
    ensures r.Success? ==> |r.value| <= |bs| + |parsed|
    ensures r.Success? ==> forall h, f :: Holds(r.value, h, f) <==> Holds(bs, h, f) || (f, h) in parsed
    decreases |parsed|
  {
    if |parsed| == 0 then Success(bs)
    else
      var (file, hash) := parsed[0];
      match Place(bs, file, hash)
      case Failure(e) => Failure(e)
      case Success(next) =>
        var r := Bucketize(next, parsed[1..]);
        assert forall p :: p in parsed <==> p == parsed[0] || p in parsed[1..];
        if r.Failure? then
          var k :| 0 <= k < |parsed[1..]| && r.error == SlotOutOfRange(parsed[1..][k].0)
                   && NamedAfterHash(parsed[1..][k].0, parsed[1..][k].1) && SlotAsked(parsed[1..][k].0) < -1;
          assert parsed[1..][k] == parsed[k + 1];
          r
        else r
  }

  // ---------------------------------------------------------------------
  // numbering
  // ---------------------------------------------------------------------

  /** `hash_targets[cert_hash].each`: every slot, `nil` included, gets the
      next counter value; a slot whose file has an aggregate name is
      skipped without using a value. The counters rise strictly, and with
      no aggregate name in the bucket every slot's link is numbered by its
      position. */
  function NumberSlots(hash: string, slots: Slots, next: nat): (r: Mapping)
    ensures forall k :: 0 <= k < |r| ==> r[k].name.Hashed? && r[k].name.hash == hash && r[k].name.index >= next
    ensures forall a, b :: 0 <= a < b < |r| ==> r[a].name.index < r[b].name.index
    ensures forall k :: 0 <= k < |r| ==> r[k].file in slots
    ensures forall f :: Some(f) in slots && !IsAggregateName(f) ==> Some(f) in Keys(r)
    ensures (forall k :: 0 <= k < |slots| ==> slots[k].None? || !IsAggregateName(slots[k].value)) ==>
              |r| == |slots| && forall k :: 0 <= k < |r| ==> r[k] == Link(slots[k], Hashed(hash, next + k))
    decreases |slots|
  {
    if |slots| == 0 then []
    else
      var rest := slots[1..];
      assert forall x :: x in slots <==> x == slots[0] || x in rest;
      if slots[0].Some? && IsAggregateName(slots[0].value) then
        NumberSlots(hash, rest, next)
      else
        var tail := NumberSlots(hash, rest, next + 1);
        var first := Link(slots[0], Hashed(hash, next));
        ConsNumbers(hash, first, next, tail);
        ConsFiles(slots, first, tail);
        ConsPositions(hash, slots, next, tail);
        [first] + tail
  }

  /** The numbering step for a first slot that is numbered: the first
      link takes counter `next`, ahead of the rest's. */
  lemma ConsNumbers(hash: string, first: Link, next: nat, tail: Mapping)
    requires first.name == Hashed(hash, next)
    requires forall k :: 0 <= k < |tail| ==>
               tail[k].name.Hashed? && tail[k].name.hash == hash && tail[k].name.index >= next + 1
    requires forall a, b :: 0 <= a < b < |tail| ==> tail[a].name.index < tail[b].name.index
    ensures var r := [first] + tail;
      && (forall k :: 0 <= k < |r| ==> r[k].name.Hashed? && r[k].name.hash == hash && r[k].name.index >= next)
      && (forall a, b :: 0 <= a < b < |r| ==> r[a].name.index < r[b].name.index)
  {
    var r := [first] + tail;
    forall a, b | 0 <= a < b < |r|
      ensures r[a].name.index < r[b].name.index
    {
      assert r[b] == tail[b - 1];
      if a > 0 {
        assert r[a] == tail[a - 1];
      }
    }
    forall k | 0 <= k < |r|
      ensures r[k].name.Hashed? && r[k].name.hash == hash && r[k].name.index >= next
    {
      if k > 0 {
        assert r[k] == tail[k - 1];
      }
    }
  }

  /** The numbering step keeps every link's file among the slots, and
      every file of the slots without an aggregate name among the keys. */
  lemma ConsFiles(slots: Slots, first: Link, tail: Mapping)
    requires |slots| > 0 && first.file == slots[0]
    requires !(slots[0].Some? && IsAggregateName(slots[0].value))
    requires forall k :: 0 <= k < |tail| ==> tail[k].file in slots[1..]
    requires forall f :: Some(f) in slots[1..] && !IsAggregateName(f) ==> Some(f) in Keys(tail)
    ensures var r := [first] + tail;
      && (forall k :: 0 <= k < |r| ==> r[k].file in slots)
      && (forall f :: Some(f) in slots && !IsAggregateName(f) ==> Some(f) in Keys(r))
  {
    var r := [first] + tail;
    var rest := slots[1..];
    forall k | 0 <= k < |r|
      ensures r[k].file in slots
    {
      if k > 0 {
        assert r[k] == tail[k - 1];
        var j :| 0 <= j < |rest| && rest[j] == tail[k - 1].file;
        assert slots[j + 1] == rest[j];
      }
    }
    forall f | Some(f) in slots && !IsAggregateName(f)
      ensures Some(f) in Keys(r)
    {
      var j :| 0 <= j < |slots| && slots[j] == Some(f);
      if j == 0 {
        assert r[0] in r;
      } else {
        assert rest[j - 1] == Some(f);
        var e :| e in tail && e.file == Some(f);
        assert e in r;
      }
    }
  }

  /** Without aggregate names, slot `k` of the bucket is numbered `k`
      after the step, as it was for the rest. */
  lemma ConsPositions(hash: string, slots: Slots, next: nat, tail: Mapping)
    requires |slots| > 0
    requires (forall k :: 0 <= k < |slots[1..]| ==> slots[1..][k].None? || !IsAggregateName(slots[1..][k].value)) ==>
               |tail| == |slots[1..]| && forall k :: 0 <= k < |tail| ==> tail[k] == Link(slots[1..][k], Hashed(hash, next + 1 + k))
    ensures var r := [Link(slots[0], Hashed(hash, next))] + tail;
      (forall k :: 0 <= k < |slots| ==> slots[k].None? || !IsAggregateName(slots[k].value)) ==>
        |r| == |slots| && forall k :: 0 <= k < |r| ==> r[k] == Link(slots[k], Hashed(hash, next + k))
  {
    var r := [Link(slots[0], Hashed(hash, next))] + tail;
    var rest := slots[1..];
    if forall k :: 0 <= k < |slots| ==> slots[k].None? || !IsAggregateName(slots[k].value) {
      forall k | 0 <= k < |rest|
        ensures rest[k].None? || !IsAggregateName(rest[k].value)
      {
        assert rest[k] == slots[k + 1];
      }
      forall k | 0 <= k < |r|
        ensures r[k] == Link(slots[k], Hashed(hash, next + k))
      {
        if k > 0 {
          assert r[k] == tail[k - 1] && rest[k - 1] == slots[k];
        }
      }
    }
  }

  /** `hash_targets.each_key`: the buckets in the order they were created. */
  function Number(bs: seq<Bucket>): Mapping
    decreases |bs|
  {
    if |bs| == 0 then [] else NumberSlots(bs[0].hash, bs[0].slots, 0) + Number(bs[1..])
  }

  /** Every numbered link is hashed, and its file came from the bucket of
      its hash. */
  lemma {:induction false} NumberOrigin(bs: seq<Bucket>)
    ensures forall e :: e in Number(bs) ==>
              (e.name.Hashed? && exists j :: 0 <= j < |bs| && bs[j].hash == e.name.hash && e.file in bs[j].slots)
    decreases |bs|
  {
    if |bs| > 0 {
      NumberOrigin(bs[1..]);
      var first := NumberSlots(bs[0].hash, bs[0].slots, 0);
      forall e | e in Number(bs)
        ensures e.name.Hashed? && exists j :: 0 <= j < |bs| && bs[j].hash == e.name.hash && e.file in bs[j].slots
      {
        if e in first {
          var k :| 0 <= k < |first| && first[k] == e;
          assert bs[0].hash == e.name.hash && e.file in bs[0].slots;
        } else {
          assert e in Number(bs[1..]);
          var j :| 0 <= j < |bs[1..]| && bs[1..][j].hash == e.name.hash && e.file in bs[1..][j].slots;
          assert bs[j + 1] == bs[1..][j];
        }
      }
    }
  }

  /** With distinct bucket hashes no two numbered links share a name. */
  lemma {:induction false} NumberNamesDistinct(bs: seq<Bucket>)
    requires DistinctHashes(bs)
    ensures DistinctNames(Number(bs))
    decreases |bs|
  {
    if |bs| > 0 {
      var first := NumberSlots(bs[0].hash, bs[0].slots, 0);
      var rest := Number(bs[1..]);
      var r := first + rest;
      assert DistinctHashes(bs[1..]) by {
        forall a, b | 0 <= a < b < |bs[1..]|
          ensures bs[1..][a].hash != bs[1..][b].hash
        {
          assert bs[1..][a] == bs[a + 1] && bs[1..][b] == bs[b + 1];
        }
      }
      NumberNamesDistinct(bs[1..]);
      NumberOrigin(bs[1..]);
      forall a, b | 0 <= a < b < |r|
        ensures r[a].name != r[b].name
      {
        if b < |first| {
          assert r[a] == first[a] && r[b] == first[b];
        } else if a >= |first| {
          assert r[a] == rest[a - |first|] && r[b] == rest[b - |first|];
        } else {
          assert r[a] == first[a];
          assert r[b] == rest[b - |first|];
          assert r[b] in rest;
          var j :| 0 <= j < |bs[1..]| && bs[1..][j].hash == r[b].name.hash && r[b].file in bs[1..][j].slots;
          assert bs[1..][j] == bs[j + 1];
        }
      }
    }
  }

  /** Every file a bucket holds whose name is not an aggregate name gets a
      numbered link. */
  lemma {:induction false} NumberCovers(bs: seq<Bucket>)
    ensures forall j, f :: 0 <= j < |bs| && Some(f) in bs[j].slots && !IsAggregateName(f) ==>
              Some(f) in Keys(Number(bs))
    decreases |bs|
  {
    if |bs| > 0 {
      NumberCovers(bs[1..]);
      var first := NumberSlots(bs[0].hash, bs[0].slots, 0);
      var rest := Number(bs[1..]);
      forall j, f | 0 <= j < |bs| && Some(f) in bs[j].slots && !IsAggregateName(f)
        ensures Some(f) in Keys(Number(bs))
      {
        if j == 0 {
          var e :| e in first && e.file == Some(f);
          assert e in Number(bs);
        } else {
          assert bs[1..][j - 1] == bs[j];
          var e :| e in rest && e.file == Some(f);
          assert e in Number(bs);
        }
      }
    }
  }

  // ---------------------------------------------------------------------
  // the ordered mapping
  // ---------------------------------------------------------------------

  /** The position of the entry for key `k`, or the number of entries. */
  function KeyIndex(m: Mapping, k: Option<Path>): (i: nat)
    ensures i <= |m|
    ensures i < |m| ==> m[i].file == k
    ensures forall j :: 0 <= j < i ==> m[j].file != k
  {
    if |m| == 0 || m[0].file == k then 0 else 1 + KeyIndex(m[1..], k)
  }

  /** Ruby `Hash#[]=` on an insertion-ordered hash: an existing key keeps
      its place and takes the new value; a new key goes to the end. */
  function Put(m: Mapping, l: Link): (r: Mapping)
    requires UniqueKeys(m)
    ensures UniqueKeys(r)
    ensures Keys(r) == Keys(m) + {l.file}
    ensures l in r
    ensures forall e :: e in r ==> e in m || e == l
    ensures forall e :: e in m && e.file != l.file ==> e in r
    ensures l.file !in Keys(m) ==> r == m + [l]
  {
    var i := KeyIndex(m, l.file);
    if i < |m| then
      var r := m[i := l];
      assert r[i] == l;
      assert forall e :: e in m && e.file != l.file ==> e in r by {
        forall e | e in m && e.file != l.file
          ensures e in r
        {
          var j :| 0 <= j < |m| && m[j] == e;
          assert r[j] == e;
        }
      }
      assert Keys(r) == Keys(m) + {l.file} by {
        assert forall e :: e in r ==> e in m || e == l;
        forall e | e in m
          ensures e.file in Keys(r)
        {
          if e.file == l.file {
            assert l in r;
          } else {
            assert e in r;
          }
        }
      }
      r
    else
      assert l.file !in Keys(m);
      m + [l]
  }

  /** Assigning the links of `links` one after the other. */
  function Assemble(m: Mapping, links: Mapping): (r: Mapping)
    requires UniqueKeys(m)
    ensures UniqueKeys(r)
    ensures Keys(r) == Keys(m) + Keys(links)
    ensures forall e :: e in r ==> e in m || e in links
    decreases |links|
  {
    if |links| == 0 then m
    else
      var r := Assemble(Put(m, links[0]), links[1..]);
      assert forall e :: e in links <==> e == links[0] || e in links[1..];
      assert Keys(links) == {links[0].file} + Keys(links[1..]);
      r
  }

  const BundleLink: Link := Link(Some(BundleName), Aggregate(BundleName))
  const StrippedBundleLink: Link := Link(Some(StrippedBundleName), Aggregate(StrippedBundleName))

  /** `@to_link['cacerts.pem'] = 'cacerts.pem'` and the same for the
      stripped bundle, unless the mapping is empty. */
  function WithAggregates(m: Mapping): (r: Mapping)
    requires UniqueKeys(m)
    ensures UniqueKeys(r)
    ensures |m| == 0 ==> r == []
    ensures |m| > 0 ==> Keys(r) == Keys(m) + {Some(BundleName), Some(StrippedBundleName)}
    ensures forall e :: e in r ==> e in m || e == BundleLink || e == StrippedBundleLink
  {
    if |m| == 0 then m
    else Put(Put(m, BundleLink), StrippedBundleLink)
  }

  /** The entries of a mapping with distinct keys carry distinct names when
      they all come from a list whose names are pairwise distinct. */
  lemma {:induction false} SubsetKeepsNamesDistinct(r: Mapping, links: Mapping)
    requires UniqueKeys(r) && DistinctNames(links)
    requires forall e :: e in r ==> e in links
    ensures DistinctNames(r)
  {
    forall a, b | 0 <= a < b < |r|
      ensures r[a].name != r[b].name
    {
      assert r[a] != r[b];
      assert r[a] in r && r[b] in r;
      var x :| 0 <= x < |links| && links[x] == r[a];
      var y :| 0 <= y < |links| && links[y] == r[b];
      assert x != y;
    }
  }

  /** The mapping made from finished buckets. */
  function MappingOf(bs: seq<Bucket>): Mapping
  {
    WithAggregates(Assemble([], Number(bs)))
  }

  /** Every entry of the finished mapping is a numbered link or one of the
      two bundle links, and its keys are those of the numbered links plus
      the bundle names. */
  lemma MappingMembers(bs: seq<Bucket>)
    ensures UniqueKeys(MappingOf(bs))
    ensures forall e :: e in MappingOf(bs) ==> e in Number(bs) || e == BundleLink || e == StrippedBundleLink
    ensures |Number(bs)| == 0 ==> MappingOf(bs) == []
    ensures |Number(bs)| > 0 ==>
              Keys(MappingOf(bs)) == Keys(Number(bs)) + {Some(BundleName), Some(StrippedBundleName)}
  {
    var numbered := Number(bs);
    var m := Assemble([], numbered);
    assert Keys(m) == Keys(numbered);
    if |numbered| > 0 {
      assert numbered[0].file in Keys(m);
    }
  }

  /** Appending the two bundle links to hashed links with distinct names
      keeps the names distinct. */
  lemma {:induction false} BundleNamesFresh(numbered: Mapping)
    requires DistinctNames(numbered)
    requires forall e :: e in numbered ==> e.name.Hashed?
    ensures DistinctNames(numbered + [BundleLink, StrippedBundleLink])
  {
    var all := numbered + [BundleLink, StrippedBundleLink];
    forall a, b | 0 <= a < b < |all|
      ensures all[a].name != all[b].name
    {
      if b < |numbered| {
        assert all[a] == numbered[a] && all[b] == numbered[b];
      } else if a < |numbered| {
        assert all[a] in numbered;
      }
    }
  }

  /** No two entries of the finished mapping share a link name. */
  lemma MappingNamesDistinct(bs: seq<Bucket>)
    requires DistinctHashes(bs)
    ensures DistinctNames(MappingOf(bs))
  {
    var numbered := Number(bs);
    NumberOrigin(bs);
    NumberNamesDistinct(bs);
    BundleNamesFresh(numbered);
    MappingMembers(bs);
    SubsetKeepsNamesDistinct(MappingOf(bs), numbered + [BundleLink, StrippedBundleLink]);
  }

  /** The finished buckets of a list of parsed certificates: distinct
      hashes, no empty bucket, and a file under a hash exactly when it was
      parsed with that hash. */
  ghost predicate Indexes(bs: seq<Bucket>, parsed: seq<(Path, string)>)
  {
    && DistinctHashes(bs)
    && Occupied(bs)
    && |bs| <= |parsed|
    && forall h, f :: Holds(bs, h, f) <==> (f, h) in parsed
  }

  /** Every hashed link of the finished mapping stands for a parsed
      certificate: its file, when it has one, was parsed with its hash. */
  lemma MappingOrigin(parsed: seq<(Path, string)>, bs: seq<Bucket>)
    requires Indexes(bs, parsed)
    ensures forall e :: e in MappingOf(bs) && e.name.Hashed? && e.file.Some? ==>
              (e.file.value, e.name.hash) in parsed
    ensures forall e :: e in MappingOf(bs) && e.name.Hashed? ==>
              exists k :: 0 <= k < |parsed| && parsed[k].1 == e.name.hash
  {
    MappingMembers(bs);
    NumberOrigin(bs);
    forall e | e in MappingOf(bs) && e.name.Hashed?
      ensures (e.file.Some? ==> (e.file.value, e.name.hash) in parsed)
      ensures exists k :: 0 <= k < |parsed| && parsed[k].1 == e.name.hash
    {
      assert e in Number(bs);
      var j :| 0 <= j < |bs| && bs[j].hash == e.name.hash && e.file in bs[j].slots;
      assert HasFile(bs[j].slots);
      var k :| 0 <= k < |bs[j].slots| && bs[j].slots[k].Some?;
      var f := bs[j].slots[k].value;
      assert Holds(bs, bs[j].hash, f);
      var i :| 0 <= i < |parsed| && parsed[i] == (f, bs[j].hash);
      if e.file.Some? {
        assert Holds(bs, e.name.hash, e.file.value);
      }
    }
  }

  /** Every parsed file without an aggregate name is a key; with no parsed
      file the mapping is empty, and with one the bundle keys are present. */
  lemma MappingCoverage(parsed: seq<(Path, string)>, bs: seq<Bucket>)
    requires Indexes(bs, parsed)
    ensures forall k :: 0 <= k < |parsed| && !IsAggregateName(parsed[k].0) ==>
              Some(parsed[k].0) in Keys(MappingOf(bs))
    ensures |parsed| == 0 ==> MappingOf(bs) == []
    ensures (exists k :: 0 <= k < |parsed| && !IsAggregateName(parsed[k].0)) ==>
              Some(BundleName) in Keys(MappingOf(bs)) && Some(StrippedBundleName) in Keys(MappingOf(bs))
  {
    MappingMembers(bs);
    NumberCovers(bs);
    var numbered := Number(bs);
    forall k | 0 <= k < |parsed| && !IsAggregateName(parsed[k].0)
      ensures Some(parsed[k].0) in Keys(numbered)
    {
      assert Holds(bs, parsed[k].1, parsed[k].0);
    }
    if exists k :: 0 <= k < |parsed| && !IsAggregateName(parsed[k].0) {
      var k :| 0 <= k < |parsed| && !IsAggregateName(parsed[k].0);
      assert Some(parsed[k].0) in Keys(numbered);
    }
  }

  /** The complete indexer: buckets, numbering and the aggregate entries.
      Keys are unique, link names are pairwise distinct, every hashed link
      stands for a parsed certificate under its own hash, every parsed file
      without an aggregate name is linked, and the two bundle entries are
      present exactly when some certificate is. */
  function BuildMapping(parsed: seq<(Path, string)>): (r: Result<Mapping, Error>)
    ensures r.Failure? ==> exists k :: 0 <= k < |parsed| && r.error == SlotOutOfRange(parsed[k].0)
                                       && NamedAfterHash(parsed[k].0, parsed[k].1) && SlotAsked(parsed[k].0) < -1
    ensures NoSlotBeforeStart(parsed) ==> r.Success?
    ensures r.Success? ==> UniqueKeys(r.value) && DistinctNames(r.value)
    ensures r.Success? ==> forall e :: e in r.value && e.name.Hashed? && e.file.Some? ==>
                             (e.file.value, e.name.hash) in parsed
    ensures r.Success? ==> forall e :: e in r.value && e.name.Hashed? ==>
                             exists k :: 0 <= k < |parsed| && parsed[k].1 == e.name.hash
    ensures r.Success? ==> forall e :: e in r.value && e.name.Aggregate? ==>
                             e == BundleLink || e == StrippedBundleLink
    ensures r.Success? ==> forall k :: 0 <= k < |parsed| && !IsAggregateName(parsed[k].0) ==>
                             Some(parsed[k].0) in Keys(r.value)
    ensures r.Success? && |parsed| == 0 ==> r.value == []
    ensures r.Success? && (exists k :: 0 <= k < |parsed| && !IsAggregateName(parsed[k].0)) ==>
              Some(BundleName) in Keys(r.value) && Some(StrippedBundleName) in Keys(r.value)
  {
    match Bucketize([], parsed)
    case Failure(e) => Failure(e)
    case Success(bs) =>
      assert Indexes(bs, parsed);
      NumberOrigin(bs);
      MappingMembers(bs);
      MappingNamesDistinct(bs);
      MappingOrigin(parsed, bs);
      MappingCoverage(parsed, bs);
      Success(MappingOf(bs))
  }

  /** With well-formed hashes the rendered link names are pairwise distinct
      too, so no two links of the mapping land on the same path. */
  lemma RenderedNamesDistinct(parsed: seq<(Path, string)>)
    requires forall k :: 0 <= k < |parsed| ==> ValidHash(parsed[k].1)
    requires BuildMapping(parsed).Success?
    ensures var m := BuildMapping(parsed).value;
      forall a, b :: 0 <= a < b < |m| ==> Render(m[a].name) != Render(m[b].name)
  {
    var m := BuildMapping(parsed).value;
    forall a, b | 0 <= a < b < |m|
      ensures Render(m[a].name) != Render(m[b].name)
    {
      assert m[a] in m && m[b] in m;
      if Render(m[a].name) == Render(m[b].name) {
        RenderInjective(m[a].name, m[b].name);
      }
    }
  }
}

=== FILE: snapshot.dfy ===
/** `source` of the directory sync provider
    (lib/puppet/provider/pki_cert_sync/sync.rb): it scans the source
    directory, keeps the directories for later, parses every other file,
    writes the two expected bundles into dot-files of the target, and
    returns the file-to-link mapping of the hash indexer. Certificate
    parsing and subject hashing belong to OpenSSL and are a parameter. */
module Snapshot {
  import opened Wrappers
  import opened Text
  import opened FileTree
  import opened Strip
  import opened HashIndex

  /** The subject hash of the certificate a file holds, or `None` when the
      bytes are not an X.509 certificate. */
  type Parser = string -> Option<nat>

  /** Where `source` stages the expected bundles inside the target. */
  const StagedBundle: Path := ".cacerts.pem"
  const StagedStrippedBundle: Path := ".cacerts_no_headers.pem"

  /** The dot-file a bundle is staged in: its name behind a dot. */
  function StagedCopy(f: Path): (r: Path)
    ensures f == BundleName ==> r == StagedBundle
    ensures f == StrippedBundleName ==> r == StagedStrippedBundle
    ensures |r| > 0 && r[0] == '.' && r[1..] == f
  {
    "." + f
  }

  /** What `source` leaves behind: the ordered mapping `@to_link`, the
      directory list `@directories`, and the target tree with both staging
      files written. */
  datatype Desired = Desired(links: Mapping, directories: seq<Path>, target: Tree)

  /** A file the scan accepted as a certificate, with its bytes and its
      subject hash in `%08x` form. */
  datatype Certificate = Certificate(file: Path, raw: string, hash: string)

  /** A file of the source that `source` treats as a certificate: listed by
      the glob, a regular file rather than a link, not named like a bundle,
      and parseable. */
  predicate IsCertificateFile(t: Tree, f: Path, parse: Parser)
  {
    f in t && Visible(f) && t[f].File? && !IsAggregateName(f) && parse(t[f].content).Some?
  }

  /** The sorted listing without symbolic links and without names matching
      the bundle pattern. */
  function Scanned(t: Tree): (r: seq<Path>)
    ensures StrictlySorted(r)
    ensures forall p :: p in r <==> p in t && Visible(p) && !t[p].Symlink? && !IsAggregateName(p)
  {
    var keep := (p: Path) => p in t && !t[p].Symlink? && !IsAggregateName(p);
    FilterKeepsOrder(Listing(t), keep);
    Filter(Listing(t), keep)
  }

  /** `@directories`: the scanned paths that are directories. */
  function Directories(t: Tree): (r: seq<Path>)
    ensures StrictlySorted(r)
    ensures forall p :: p in r <==> p in t && Visible(p) && t[p] == Dir && !IsAggregateName(p)
  {
    var keep := (p: Path) => IsDirectory(t, p);
    FilterKeepsOrder(Scanned(t), keep);
    Filter(Scanned(t), keep)
  }

  /** The files left to parse: the scanned paths that are not directories,
      which leaves regular files only. */
  function Candidates(t: Tree): (r: seq<Path>)
    ensures StrictlySorted(r)
    ensures forall p :: p in r <==> p in t && Visible(p) && t[p].File? && !IsAggregateName(p)
  {
    var keep := (p: Path) => !IsDirectory(t, p);
    FilterKeepsOrder(Scanned(t), keep);
    Filter(Scanned(t), keep)
  }

  /** The candidates that parse, in order: a file that does not parse is
      skipped. */
  function CertificateFiles(t: Tree, parse: Parser): (r: seq<Path>)
    ensures StrictlySorted(r)
    ensures forall f :: f in r <==> IsCertificateFile(t, f, parse)
  {
    var keep := (f: Path) => f in t && t[f].File? && parse(t[f].content).Some?;
    FilterKeepsOrder(Candidates(t), keep);
    Filter(Candidates(t), keep)
  }

  /** Every certificate of the source, in sorted order, with its bytes and
      its subject hash. */
  function Certificates(t: Tree, parse: Parser): (r: seq<Certificate>)
    ensures |r| == |CertificateFiles(t, parse)|
    ensures forall i :: 0 <= i < |r| ==> r[i].file == CertificateFiles(t, parse)[i]
    ensures forall i :: 0 <= i < |r| ==>
              IsCertificateFile(t, r[i].file, parse) && t[r[i].file] == File(r[i].raw)
              && r[i].hash == Format08x(parse(r[i].raw).value)
  {
    var files := CertificateFiles(t, parse);
    seq(|files|, i requires 0 <= i < |files| =>
      assert files[i] in files;
      Certificate(files[i], t[files[i]].content, Format08x(parse(t[files[i]].content).value)))
  }

  /** The `(file, hash)` pairs handed to the indexer. */
  function Pairs(cs: seq<Certificate>): (r: seq<(Path, string)>)
    ensures |r| == |cs|
    ensures forall i :: 0 <= i < |cs| ==> r[i] == (cs[i].file, cs[i].hash)
  {
    seq(|cs|, i requires 0 <= i < |cs| => (cs[i].file, cs[i].hash))
  }

  /** The bytes written to the staged bundle: each certificate file as read. */
  function Raws(cs: seq<Certificate>): (r: seq<string>)
    ensures |r| == |cs|
    ensures forall i :: 0 <= i < |cs| ==> r[i] == cs[i].raw
  {
    seq(|cs|, i requires 0 <= i < |cs| => cs[i].raw)
  }

  /** The bytes written to the staged stripped bundle: each certificate
      file passed through the sync provider's stripper. */
  function StrippedRaws(cs: seq<Certificate>): (r: seq<string>)
    ensures |r| == |cs|
    ensures forall i :: 0 <= i < |cs| ==> r[i] == SyncStrip(cs[i].raw)
  {
    seq(|cs|, i requires 0 <= i < |cs| => SyncStrip(cs[i].raw))
  }

  /** The target with both staging files written; nothing else changes. */
  function Stage(base: Tree, cs: seq<Certificate>): (r: Tree)
    ensures StagedBundle in r && r[StagedBundle] == File(Concat(Raws(cs)))
    ensures StagedStrippedBundle in r && r[StagedStrippedBundle] == File(Concat(StrippedRaws(cs)))
    ensures forall p :: p != StagedBundle && p != StagedStrippedBundle ==>
              (p in r <==> p in base) && (p in r ==> r[p] == base[p])
  {
    base[StagedBundle := File(Concat(Raws(cs)))][StagedStrippedBundle := File(Concat(StrippedRaws(cs)))]
  }

  /** Neither staging path is, or names a link to, a directory, so
      `File.open` for writing does not raise `EISDIR` on it. */
  predicate StagingWritable(base: Tree)
  {
    !IsDirectory(base, StagedBundle) && !IsDirectory(base, StagedStrippedBundle)
  }

  /** Reading a staging file back after `Stage` gives what was written:
      the certificates' bytes, and their stripped text, in file order. */
  lemma StagedReadsBack(base: Tree, cs: seq<Certificate>)
    ensures Read(Stage(base, cs), StagedBundle) == Some(Concat(Raws(cs)))
    ensures Read(Stage(base, cs), StagedStrippedBundle) == Some(Concat(StrippedRaws(cs)))
  {
  }

  /** `source`: the source must be a directory, and the target a
      directory or absent in an existing directory (then `Dir.mkdir`
      creates it). */
  function Source(src: Root, target: Root, parse: Parser): (r: Result<Desired, Error>)
    ensures !src.Directory? ==> r == Failure(InvalidSource)
    ensures src.Directory? && target.NonDirectory? ==> r == Failure(TargetNotDirectory)
    ensures src.Directory? && target.Orphaned? ==> r == Failure(TargetParentMissing)
    ensures src.Directory? && Usable(target) ==> r == ScanSource(src.tree, TargetTree(target), parse)
  {
    match src
    case Absent => Failure(InvalidSource)
    case Orphaned => Failure(InvalidSource)
    case NonDirectory => Failure(InvalidSource)
    case Directory(t) =>
      if target.NonDirectory? then Failure(TargetNotDirectory)
      else if target.Orphaned? then Failure(TargetParentMissing)
      else ScanSource(t, TargetTree(target), parse)
  }

  /** No certificate file named after its own subject hash asks for a slot
      before the start (a `<hash>.<n>` name with `n` below -1). */
  ghost predicate NoCertificateSlotBeforeStart(t: Tree, parse: Parser)
  {
    forall f :: IsCertificateFile(t, f, parse) && NamedAfterHash(f, Format08x(parse(t[f].content).value)) ==>
      SlotAsked(f) >= 0
  }

  /** The ordered mapping `source` builds from the certificates of `t`. It
      fails only on a certificate file whose name asks for a slot before the
      start of its bucket, and so succeeds when there is none. On success every hashed link stands for a
      certificate file under its own subject hash and every certificate
      file is linked; link names are pairwise distinct as paths; and the
      bundle entries are present exactly when the source holds a
      certificate. */
  function Index(t: Tree, parse: Parser): (r: Result<Mapping, Error>)
    ensures r.Failure? ==> r.error.SlotOutOfRange? && IsCertificateFile(t, r.error.path, parse)
    ensures r.Failure? ==> NamedAfterHash(r.error.path, Format08x(parse(t[r.error.path].content).value))
                           && SlotAsked(r.error.path) < -1
    ensures NoCertificateSlotBeforeStart(t, parse) ==> r.Success?
    ensures r.Success? ==> UniqueKeys(r.value)
    ensures r.Success? ==> forall a, b :: 0 <= a < b < |r.value| ==>
              Render(r.value[a].name) != Render(r.value[b].name)
    ensures r.Success? ==> forall e :: e in r.value && e.name.Hashed? && e.file.Some? ==>
              IsCertificateFile(t, e.file.value, parse) &&
              e.name.hash == Format08x(parse(t[e.file.value].content).value)
    ensures r.Success? ==> forall f :: IsCertificateFile(t, f, parse) ==> Some(f) in Keys(r.value)
    ensures r.Success? ==> forall e :: e in r.value && e.name.Aggregate? ==>
              e == BundleLink || e == StrippedBundleLink
    ensures r.Success? ==>
              ((exists f :: IsCertificateFile(t, f, parse)) <==> Some(BundleName) in Keys(r.value)) &&
              ((exists f :: IsCertificateFile(t, f, parse)) <==> Some(StrippedBundleName) in Keys(r.value))
  {
    var cs := Certificates(t, parse);
    var pairs := Pairs(cs);
    PairsOfCertificates(t, parse, cs);
    IndexOutcome(t, parse, cs);
    match BuildMapping(pairs)
    case Failure(e) => Failure(e)
    case Success(links) =>
      RenderedNamesDistinct(pairs);
      MappingAgainstSource(t, parse, cs, links);
      Success(links)
  }

  /** The scan of a source directory `t` into the target tree `base`: the
      mapping of `Index`, the directory list, which is exactly the source's
      visible non-link directories in order, and the target with the two
      staging files holding the raw and the stripped certificates,
      everything else in it left as it was. Opening a staging path that is
      a directory raises `EISDIR` first, before any file is parsed. */
  function ScanSource(t: Tree, base: Tree, parse: Parser): (r: Result<Desired, Error>)
    ensures IsDirectory(base, StagedBundle) ==> r == Failure(StagingIsDirectory(StagedBundle))
    ensures !IsDirectory(base, StagedBundle) && IsDirectory(base, StagedStrippedBundle) ==>
              r == Failure(StagingIsDirectory(StagedStrippedBundle))
    ensures r.Failure? && StagingWritable(base) ==> r.error.SlotOutOfRange? && IsCertificateFile(t, r.error.path, parse)
    ensures NoCertificateSlotBeforeStart(t, parse) && StagingWritable(base) ==> r.Success?
    ensures r.Success? ==> Index(t, parse) == Success(r.value.links)
    ensures r.Success? ==> StrictlySorted(r.value.directories)
    ensures r.Success? ==> forall p :: p in r.value.directories <==>
              p in t && Visible(p) && t[p] == Dir && !IsAggregateName(p)
    ensures r.Success? ==> r.value.target == Stage(base, Certificates(t, parse))
  {
    if IsDirectory(base, StagedBundle) then Failure(StagingIsDirectory(StagedBundle))
    else if IsDirectory(base, StagedStrippedBundle) then Failure(StagingIsDirectory(StagedStrippedBundle))
    else match Index(t, parse)
    case Failure(e) => Failure(e)
    case Success(links) => Success(Desired(links, Directories(t), Stage(base, Certificates(t, parse))))
  }

  /** The indexer fails only on a certificate file named after its own
      hash that asks for a slot below -1, and succeeds when no certificate
      file asks for a negative slot. */
  lemma IndexOutcome(t: Tree, parse: Parser, cs: seq<Certificate>)
    requires cs == Certificates(t, parse)
    ensures BuildMapping(Pairs(cs)).Failure? ==>
              var e := BuildMapping(Pairs(cs)).error;
              e.SlotOutOfRange? && IsCertificateFile(t, e.path, parse) &&
              NamedAfterHash(e.path, Format08x(parse(t[e.path].content).value)) && SlotAsked(e.path) < -1
    ensures NoCertificateSlotBeforeStart(t, parse) ==> BuildMapping(Pairs(cs)).Success?
  {
    var pairs := Pairs(cs);
    PairsOfCertificates(t, parse, cs);
    if BuildMapping(pairs).Failure? {
      var e := BuildMapping(pairs).error;
      var k :| 0 <= k < |pairs| && e == SlotOutOfRange(pairs[k].0) && NamedAfterHash(pairs[k].0, pairs[k].1)
               && SlotAsked(pairs[k].0) < -1;
      assert pairs[k] in pairs;
    }
    if NoCertificateSlotBeforeStart(t, parse) {
      forall k | 0 <= k < |pairs| && NamedAfterHash(pairs[k].0, pairs[k].1)
        ensures SlotAsked(pairs[k].0) >= 0
      {
        assert pairs[k] in pairs;
      }
    }
  }

  /** The pairs handed to the indexer carry well-formed hashes, and each
      names a certificate file with its own hash. */
  lemma PairsOfCertificates(t: Tree, parse: Parser, cs: seq<Certificate>)
    requires cs == Certificates(t, parse)
    ensures forall k :: 0 <= k < |Pairs(cs)| ==> ValidHash(Pairs(cs)[k].1)
    ensures forall f, h :: (f, h) in Pairs(cs) ==>
              IsCertificateFile(t, f, parse) && h == Format08x(parse(t[f].content).value)
    ensures forall f :: IsCertificateFile(t, f, parse) ==> exists k :: 0 <= k < |Pairs(cs)| && Pairs(cs)[k].0 == f
    ensures forall k :: 0 <= k < |Pairs(cs)| ==> IsCertificateFile(t, Pairs(cs)[k].0, parse)
  {
    PairsAreCertificates(t, parse, cs);
    PairsCoverCertificates(t, parse, cs);
  }

  lemma PairsAreCertificates(t: Tree, parse: Parser, cs: seq<Certificate>)
    requires forall i :: 0 <= i < |cs| ==>
               IsCertificateFile(t, cs[i].file, parse) && t[cs[i].file] == File(cs[i].raw)
               && cs[i].hash == Format08x(parse(cs[i].raw).value)
    ensures forall k :: 0 <= k < |Pairs(cs)| ==> ValidHash(Pairs(cs)[k].1)
    ensures forall f, h :: (f, h) in Pairs(cs) ==>
              IsCertificateFile(t, f, parse) && h == Format08x(parse(t[f].content).value)
    ensures forall k :: 0 <= k < |Pairs(cs)| ==> IsCertificateFile(t, Pairs(cs)[k].0, parse)
  {
    var pairs := Pairs(cs);
    forall k | 0 <= k < |pairs|
      ensures ValidHash(pairs[k].1) && IsCertificateFile(t, pairs[k].0, parse)
    {
    }
    forall f, h | (f, h) in pairs
      ensures IsCertificateFile(t, f, parse) && h == Format08x(parse(t[f].content).value)
    {
      var k :| 0 <= k < |pairs| && pairs[k] == (f, h);
    }
  }

  lemma PairsCoverCertificates(t: Tree, parse: Parser, cs: seq<Certificate>)
    requires |cs| == |CertificateFiles(t, parse)|
    requires forall i :: 0 <= i < |cs| ==> cs[i].file == CertificateFiles(t, parse)[i]
    ensures forall f :: IsCertificateFile(t, f, parse) ==> exists k :: 0 <= k < |Pairs(cs)| && Pairs(cs)[k].0 == f
  {
    var pairs := Pairs(cs);
    forall f | IsCertificateFile(t, f, parse)
      ensures exists k :: 0 <= k < |pairs| && pairs[k].0 == f
    {
      var files := CertificateFiles(t, parse);
      var k :| 0 <= k < |files| && files[k] == f;
      assert pairs[k].0 == f;
    }
  }

  /** What the mapping built from the certificates says about the source. */
  lemma MappingAgainstSource(t: Tree, parse: Parser, cs: seq<Certificate>, links: Mapping)
    requires cs == Certificates(t, parse)
    requires BuildMapping(Pairs(cs)) == Success(links)
    ensures forall e :: e in links && e.name.Hashed? && e.file.Some? ==>
              IsCertificateFile(t, e.file.value, parse) &&
              e.name.hash == Format08x(parse(t[e.file.value].content).value)
    ensures forall f :: IsCertificateFile(t, f, parse) ==> Some(f) in Keys(links)
    ensures (exists f :: IsCertificateFile(t, f, parse)) <==> Some(BundleName) in Keys(links)
    ensures (exists f :: IsCertificateFile(t, f, parse)) <==> Some(StrippedBundleName) in Keys(links)
  {
    var pairs := Pairs(cs);
    PairsOfCertificates(t, parse, cs);
    forall f | IsCertificateFile(t, f, parse)
      ensures Some(f) in Keys(links)
    {
      var k :| 0 <= k < |pairs| && pairs[k].0 == f;
      assert !IsAggregateName(pairs[k].0);
    }
    if |pairs| > 0 {
      assert IsCertificateFile(t, pairs[0].0, parse);
    }
    if exists f :: IsCertificateFile(t, f, parse) {
      var f :| IsCertificateFile(t, f, parse);
      var k :| 0 <= k < |pairs| && pairs[k].0 == f;
      assert !IsAggregateName(pairs[k].0);
    } else {
      assert |pairs| == 0;
    }
  }
}

=== FILE: strip.dfy ===
/** `strip_x509_headers`, present twice in the repository: in the directory
    sync provider (lib/puppet/provider/pki_cert_sync/sync.rb), which ends its
    result with a newline, and in the single-file provider
    (lib/puppet/provider/pki_cert_strip/linux.rb), which does not. Both keep
    the lines of each PEM certificate block (section 5.1 of RFC 7468) and
    drop everything between blocks. The encapsulation boundaries are
    recognised only as whole lines equal to the markers below. */
module Strip {
  import opened Text

  const BeginMarker: string := "-----BEGIN CERTIFICATE-----"
  const EndMarker: string := "-----END CERTIFICATE-----"

  /** The two-state line scanner. `open` records that a BEGIN line has been
      seen whose END line has not: an open scanner keeps every line and closes
      on an END line; a closed one keeps only a BEGIN line, which opens it.
      Every kept line is one of the input lines. */
  function Scan(lines: seq<string>, open: bool): (r: seq<string>)
    ensures |r| <= |lines|
    ensures forall i :: 0 <= i < |r| ==> r[i] in lines
  {
    if |lines| == 0 then []
    else
      var line := lines[0];
      var rest := lines[1..];
      if open then [line] + Scan(rest, line != EndMarker)
      else if line == BeginMarker then [line] + Scan(rest, true)
      else Scan(rest, false)
  }

  /** The lines of a text as `String#split("\n")` yields them. */
  function Lines(text: string): seq<string>
  {
    RubySplit(text, '\n')
  }

  /** The sync provider's stripper: the kept lines joined with newlines,
      plus a final newline. It is the single-file provider's result with a
      newline added, so even a text with no certificate gives `"\n"`. */
  function SyncStrip(text: string): (r: string)
    ensures r == LinuxStrip(text) + "\n"
    ensures |r| > 0 && r[|r| - 1] == '\n'
  {
    var kept := Scan(Lines(text), false);
    Join(kept, '\n') + "\n"
  }

  /** The single-file provider's stripper: the kept lines joined with
      newlines, nothing added. */
  function LinuxStrip(text: string): string
  {
    Join(Scan(Lines(text), false), '\n')
  }

  // ---------------------------------------------------------------------
  // what the scanner keeps, stated without the scanner
  // ---------------------------------------------------------------------

  /** A BEGIN line occurs before index `n` and no END line follows it
      before `n`: the scanner is open when it reaches line `n`. */
  predicate OpenBefore(lines: seq<string>, n: int)
    requires 0 <= n <= |lines|
  {
    exists j :: 0 <= j < n && lines[j] == BeginMarker && NoEndBetween(lines, j, n)
  }

  predicate NoEndBetween(lines: seq<string>, from: int, to: int)
    requires 0 <= from <= to <= |lines|
  {
    forall k :: from <= k < to ==> lines[k] != EndMarker
  }

  /** Line `i` belongs to a certificate block: it is a BEGIN line, or it
      follows one with no END line in between. An END line closes the block
      it belongs to; a block with no END line runs to the end of the input. */
  predicate InBlock(lines: seq<string>, i: int)
    requires 0 <= i < |lines|
  {
    exists j :: 0 <= j <= i && lines[j] == BeginMarker && NoEndBetween(lines, j, i)
  }

  /** The lines from index `n` on that belong to a certificate block, in order. */
  function BlockLinesFrom(lines: seq<string>, n: nat): seq<string>
    requires n <= |lines|
    decreases |lines| - n
  {
    if n == |lines| then []
    else (if InBlock(lines, n) then [lines[n]] else []) + BlockLinesFrom(lines, n + 1)
  }

  lemma {:induction false} ScanFrom(lines: seq<string>, n: nat)
    requires n <= |lines|
    ensures Scan(lines[n..], OpenBefore(lines, n)) == BlockLinesFrom(lines, n)
    decreases |lines| - n
  {
    if n < |lines| {
      var line := lines[n];
      var open := OpenBefore(lines, n);
      assert lines[n..][1..] == lines[n + 1..];
      if open {
        var j :| 0 <= j < n && lines[j] == BeginMarker && NoEndBetween(lines, j, n);
        assert InBlock(lines, n);
        if line == EndMarker {
          forall j' | 0 <= j' < n + 1 && lines[j'] == BeginMarker
            ensures !NoEndBetween(lines, j', n + 1)
          {
            assert j' <= n && lines[n] == EndMarker;
          }
          assert !OpenBefore(lines, n + 1);
        } else {
          assert NoEndBetween(lines, j, n + 1);
          assert OpenBefore(lines, n + 1);
        }
      } else if line == BeginMarker {
        assert NoEndBetween(lines, n, n);
        assert InBlock(lines, n);
        assert NoEndBetween(lines, n, n + 1);
        assert OpenBefore(lines, n + 1);
      } else {
        forall j | 0 <= j <= n && lines[j] == BeginMarker
          ensures !NoEndBetween(lines, j, n)
        {
          assert j < n;
        }
        assert !InBlock(lines, n);
        forall j | 0 <= j < n + 1 && lines[j] == BeginMarker
          ensures !NoEndBetween(lines, j, n + 1)
        {
          assert j < n;
          assert !NoEndBetween(lines, j, n);
        }
        assert !OpenBefore(lines, n + 1);
      }
      ScanFrom(lines, n + 1);
    }
  }

  /** The scanner keeps exactly the lines that belong to a certificate
      block: from each exact BEGIN line through the next exact END line. */
  lemma ScanKeepsBlockLines(lines: seq<string>)
    ensures Scan(lines, false) == BlockLinesFrom(lines, 0)
  {
    ScanFrom(lines, 0);
    assert lines[0..] == lines;
  }

  /** Without a BEGIN line nothing is kept: the single-file stripper returns
      `""` and the sync stripper returns `"\n"`. */
  lemma {:induction false} NoCertificateNothingKept(lines: seq<string>)
    requires forall i :: 0 <= i < |lines| ==> lines[i] != BeginMarker
    ensures Scan(lines, false) == []
    decreases |lines|
  {
    if |lines| > 0 {
      NoCertificateNothingKept(lines[1..]);
    }
  }

  lemma NoCertificateText(text: string)
    requires forall i :: 0 <= i < |Lines(text)| ==> Lines(text)[i] != BeginMarker
    ensures LinuxStrip(text) == ""
    ensures SyncStrip(text) == "\n"
  {
    NoCertificateNothingKept(Lines(text));
  }

  /** The test suite expects `""` for an empty input; the sync stripper as
      written returns a lone newline. */
  lemma SyncStripOfEmpty()
    ensures Lines("") == []
    ensures SyncStrip("") == "\n"
    ensures LinuxStrip("") == ""
  {
  }

  // ---------------------------------------------------------------------
  // idempotence
  // ---------------------------------------------------------------------

  /** Scanning the kept lines again keeps all of them. */
  lemma {:induction false} ScanIdempotent(lines: seq<string>, open: bool)
    ensures Scan(Scan(lines, open), open) == Scan(lines, open)
    decreases |lines|
  {
    if |lines| > 0 {
      var line := lines[0];
      var rest := lines[1..];
      if open {
        ScanIdempotent(rest, line != EndMarker);
        var kept := Scan(rest, line != EndMarker);
        assert ([line] + kept)[1..] == kept;
      } else if line == BeginMarker {
        ScanIdempotent(rest, true);
        var kept := Scan(rest, true);
        assert ([line] + kept)[1..] == kept;
      } else {
        ScanIdempotent(rest, false);
      }
    }
  }

  /** When the input ends in a non-empty line, so does what the scanner keeps. */
  lemma {:induction false} LastKeptNotEmpty(lines: seq<string>, open: bool)
    requires |lines| > 0 ==> lines[|lines| - 1] != ""
    ensures |Scan(lines, open)| > 0 ==> Scan(lines, open)[|Scan(lines, open)| - 1] != ""
    decreases |lines|
  {
    if |lines| > 0 {
      var line := lines[0];
      var rest := lines[1..];
      var next := if open then line != EndMarker else line == BeginMarker;
      if |rest| > 0 {
        assert rest[|rest| - 1] == lines[|lines| - 1];
        LastKeptNotEmpty(rest, next);
        if next {
          assert Scan(rest, true) == [rest[0]] + Scan(rest[1..], rest[0] != EndMarker);
        }
      }
    }
  }

  /** `split` undoes `join` on lines with no newline whose last line is not empty. */
  lemma {:induction false} LinesOfJoin(parts: seq<string>)
    requires forall i :: 0 <= i < |parts| ==> '\n' !in parts[i]
    requires |parts| > 0 ==> parts[|parts| - 1] != ""
    ensures Lines(Join(parts, '\n')) == parts
    decreases |parts|
  {
    if |parts| > 0 {
      var all := SplitAll(Join(parts, '\n'), '\n');
      assert all == parts by {
        SplitOfJoin(parts);
      }
    }
  }

  lemma {:induction false} SplitOfJoin(parts: seq<string>)
    requires |parts| >= 1
    requires forall i :: 0 <= i < |parts| ==> '\n' !in parts[i]
    ensures SplitAll(Join(parts, '\n'), '\n') == parts
    decreases |parts|
  {
    if |parts| == 1 {
      SplitSingleField(parts[0], '\n');
    } else {
      SplitOfJoin(parts[1..]);
      SplitAfterField(parts[0], Join(parts[1..], '\n'), '\n');
      assert [parts[0]] + parts[1..] == parts;
    }
  }

  lemma KeptTextLines(text: string)
    ensures var kept := Scan(Lines(text), false);
      Lines(LinuxStrip(text)) == kept && Lines(SyncStrip(text)) == kept
  {
    var lines := Lines(text);
    var kept := Scan(lines, false);
    LinesHaveNoNewline(text);
    LastKeptNotEmpty(lines, false);
    KeptLinesHaveNoNewline(lines, kept);
    JoinedLines(kept);
    assert LinuxStrip(text) == Join(kept, '\n');
    assert SyncStrip(text) == Join(kept, '\n') + "\n";
  }

  /** The lines of a text hold no newline, and the last one is not empty. */
  lemma LinesHaveNoNewline(text: string)
    ensures forall i :: 0 <= i < |Lines(text)| ==> '\n' !in Lines(text)[i]
    ensures |Lines(text)| > 0 ==> Lines(text)[|Lines(text)| - 1] != ""
  {
  }

  /** Both joins of lines without a newline, the last one not empty, split
      back into those lines. */
  lemma JoinedLines(kept: seq<string>)
    requires forall i :: 0 <= i < |kept| ==> '\n' !in kept[i]
    requires |kept| > 0 ==> kept[|kept| - 1] != ""
    ensures Lines(Join(kept, '\n')) == kept
    ensures Lines(Join(kept, '\n') + "\n") == kept
  {
    LinesOfJoin(kept);
    RubySplitOfTerminatedJoin(kept, '\n');
  }

  lemma KeptLinesHaveNoNewline(lines: seq<string>, kept: seq<string>)
    requires forall i :: 0 <= i < |lines| ==> '\n' !in lines[i]
    requires forall i :: 0 <= i < |kept| ==> kept[i] in lines
    ensures forall i :: 0 <= i < |kept| ==> '\n' !in kept[i]
  {
  }

  /** Stripping twice gives the same text as stripping once, for both
      variants. */
  lemma StripIdempotent(text: string)
    ensures SyncStrip(SyncStrip(text)) == SyncStrip(text)
    ensures LinuxStrip(LinuxStrip(text)) == LinuxStrip(text)
  {
    KeptTextLines(text);
    ScanIdempotent(Lines(text), false);
  }
}

=== FILE: synccheck.dfy ===
/** `source_insync?` of the directory sync provider
    (lib/puppet/provider/pki_cert_sync/sync.rb): a short-circuiting decision
    over the target directory. With purging on, the number of regular files
    and the directory tree must match; then every key and every link name of
    the mapping must be a regular file of the target; then each certificate
    must have the source's bytes and its link must point at it, and each
    bundle must equal the dot-file `source` staged for it. */
module SyncCheck {
  import opened Wrappers
  import opened Text
  import opened FileTree
  import opened Compare
  import opened HashIndex
  import opened Snapshot

  /** The target's recursive listing narrowed to `File.file?`:
      the visible paths that resolve to regular files. */
  function TargetFiles(t: Tree): (r: set<Path>)
    ensures forall f :: f in r <==> f in t && Visible(f) && IsFile(t, f)
  {
    set f | f in t && Visible(f) && IsFile(t, f)
  }

  /** The visible paths that resolve to directories. */
  function TargetDirectories(t: Tree): (r: set<Path>)
    ensures forall d :: d in r <==> d in t && Visible(d) && IsDirectory(t, d)
  {
    set d | d in t && Visible(d) && IsDirectory(t, d)
  }

  /** `src.to_a.flatten.uniq`: every key (`nil` included) and every link
      name, each counted once. */
  function Names(links: Mapping): (r: set<Option<Path>>)
    ensures forall e :: e in links ==> e.file in r && Some(Render(e.name)) in r
    ensures forall n :: n in r ==> exists e :: e in links && (n == e.file || n == Some(Render(e.name)))
  {
    Keys(links) + set e | e in links :: Some(Render(e.name))
  }

  /** `files.include?(file) and files.include?(link)`. */
  predicate Present(e: Link, files: set<Path>)
  {
    e.file.Some? && e.file.value in files && Render(e.name) in files
  }

  /** The per-pair check of the second loop: a bundle must not differ from
      its staged copy; a certificate must not differ from the source file,
      and its link name must be a symbolic link whose stored target is the
      file's name. */
  predicate Current(e: Link, src: Tree, t: Tree)
    requires e.file.Some?
  {
    var f := e.file.value;
    if IsAggregateName(f) then !Differ(Read(t, StagedCopy(f)), Read(t, f))
    else
      && !Differ(Read(src, f), Read(t, f))
      && Render(e.name) in t && t[Render(e.name)] == Symlink(f)
  }

  /** The first loop over the mapping, stopping at the first pair missing
      from the target. */
  function AllPresent(links: Mapping, files: set<Path>): bool
  {
    if |links| == 0 then true
    else if !Present(links[0], files) then false
    else AllPresent(links[1..], files)
  }

  /** The second loop, stopping at the first pair that is not current. */
  function AllCurrent(links: Mapping, src: Tree, t: Tree): bool
    requires forall e :: e in links ==> e.file.Some?
  {
    if |links| == 0 then true
    else if !Current(links[0], src, t) then false
    else AllCurrent(links[1..], src, t)
  }

  /** The decision on an existing target directory, in the order the
      provider makes it. */
  function Decide(links: Mapping, directories: seq<Path>, purge: bool, src: Tree, t: Tree): bool
  {
    var files := TargetFiles(t);
    if purge && |files| != |Names(links)| then false
    else if purge && TargetDirectories(t) != (set d | d in directories) then false
    else if !AllPresent(links, files) then false
    else
      AllPresentMeans(links, files);
      AllCurrent(links, src, t)
  }

  /** `source_insync?`: a target that exists but is not a directory, or
      whose parent directory is missing, makes `Dir.mkdir` raise; a missing
      one is created empty first. */
  function SourceInSync(links: Mapping, directories: seq<Path>, purge: bool, src: Tree, target: Root)
    : (r: Result<bool, Error>)
    ensures !Usable(target) <==> r.Failure?
    ensures target.NonDirectory? ==> r == Failure(TargetNotDirectory)
    ensures target.Orphaned? ==> r == Failure(TargetParentMissing)
    ensures r.Success? ==> r.value == Decide(links, directories, purge, src, TargetTree(target))
  {
    match target
    case NonDirectory => Failure(TargetNotDirectory)
    case Orphaned => Failure(TargetParentMissing)
    case Absent => Success(Decide(links, directories, purge, src, map[]))
    case Directory(t) => Success(Decide(links, directories, purge, src, t))
  }

  // ---------------------------------------------------------------------
  // what the decision means
  // ---------------------------------------------------------------------

  /** The target agrees with the mapping, stated pair by pair without the
      loops: every key is a regular file of the target and so is every link
      name; each bundle holds the same bytes as its staged copy; each
      certificate holds the same bytes as the source file and its link is a
      symbolic link to it; and, with purging on, the file count and the
      directory tree match. */
  predicate Converged(links: Mapping, directories: seq<Path>, purge: bool, src: Tree, t: Tree)
  {
    && (purge ==> |TargetFiles(t)| == |Names(links)|)
    && (purge ==> TargetDirectories(t) == (set d | d in directories))
    && (forall e :: e in links ==>
          && e.file.Some?
          && e.file.value in t && Visible(e.file.value) && IsFile(t, e.file.value)
          && Render(e.name) in t && Visible(Render(e.name)) && IsFile(t, Render(e.name)))
    && (forall e :: e in links && e.file.Some? && IsAggregateName(e.file.value) ==>
          Read(t, StagedCopy(e.file.value)).Some? && Read(t, StagedCopy(e.file.value)) == Read(t, e.file.value))
    && (forall e :: e in links && e.file.Some? && !IsAggregateName(e.file.value) ==>
          && Read(src, e.file.value).Some? && Read(src, e.file.value) == Read(t, e.file.value)
          && Render(e.name) in t && t[Render(e.name)] == Symlink(e.file.value))
  }

  lemma {:induction false} AllPresentMeans(links: Mapping, files: set<Path>)
    ensures AllPresent(links, files) <==> forall e :: e in links ==> Present(e, files)
    decreases |links|
  {
    if |links| > 0 {
      AllPresentMeans(links[1..], files);
      assert forall e :: e in links <==> e == links[0] || e in links[1..];
    }
  }

  lemma {:induction false} AllCurrentMeans(links: Mapping, src: Tree, t: Tree)
    requires forall e :: e in links ==> e.file.Some?
    ensures AllCurrent(links, src, t) <==> forall e :: e in links ==> Current(e, src, t)
    decreases |links|
  {
    if |links| > 0 {
      AllCurrentMeans(links[1..], src, t);
      assert forall e :: e in links <==> e == links[0] || e in links[1..];
    }
  }

  /** The provider's decision holds exactly when the target has converged. */
  lemma DecideMeans(links: Mapping, directories: seq<Path>, purge: bool, src: Tree, t: Tree)
    ensures Decide(links, directories, purge, src, t) <==> Converged(links, directories, purge, src, t)
  {
    var files := TargetFiles(t);
    AllPresentMeans(links, files);
    if forall e :: e in links ==> Present(e, files) {
      AllCurrentMeans(links, src, t);
    }
  }

  /** In sync, the target is a directory (created if it was missing) in
      which every key and link name is a regular file, every certificate
      has the source's bytes and a symbolic link to it, every bundle equals
      its staged copy, and, when purging, the file count and the directory
      tree match. */
  lemma InSyncMeansCurrent(links: Mapping, directories: seq<Path>, purge: bool, src: Tree, target: Root)
    requires SourceInSync(links, directories, purge, src, target) == Success(true)
    ensures Usable(target)
    ensures var t := TargetTree(target);
      forall e :: e in links ==> e.file.Some? && IsFile(t, e.file.value) && IsFile(t, Render(e.name))
    ensures var t := TargetTree(target);
      forall e :: e in links && e.file.Some? && !IsAggregateName(e.file.value) ==>
        Read(src, e.file.value).Some? && Read(src, e.file.value) == Read(t, e.file.value) &&
        Render(e.name) in t && t[Render(e.name)] == Symlink(e.file.value)
    ensures var t := TargetTree(target);
      forall e :: e in links && e.file.Some? && IsAggregateName(e.file.value) ==>
        Read(t, StagedCopy(e.file.value)).Some? && Read(t, StagedCopy(e.file.value)) == Read(t, e.file.value)
    ensures purge ==> |TargetFiles(TargetTree(target))| == |Names(links)|
    ensures purge ==> TargetDirectories(TargetTree(target)) == (set d | d in directories)
  {
    DecideMeans(links, directories, purge, src, TargetTree(target));
  }

  /** A freshly created, empty target is out of sync with a non-empty
      mapping, and, when purging, with a non-empty directory list. */
  lemma FreshTargetNotInSync(links: Mapping, directories: seq<Path>, purge: bool, src: Tree)
    requires |links| > 0 || (purge && |directories| > 0)
    ensures SourceInSync(links, directories, purge, src, Absent) == Success(false)
  {
    var t: Tree := map[];
    DecideMeans(links, directories, purge, src, t);
    if |links| > 0 {
      assert links[0] in links;
    } else {
      assert TargetFiles(t) == {};
      assert Names(links) == {};
      assert TargetDirectories(t) == {};
      assert purge;
      assert directories[0] in (set d | d in directories);
      assert directories[0] !in TargetDirectories(t);
      assert !Converged(links, directories, purge, src, t);
    }
  }

  /** A `nil` key, left by `Array#insert` padding, keeps the target out of
      sync forever: `files.include?(nil)` is false. */
  lemma NilKeyNeverInSync(links: Mapping, directories: seq<Path>, purge: bool, src: Tree, target: Root, e: Link)
    requires e in links && e.file.None?
    ensures SourceInSync(links, directories, purge, src, target) != Success(true)
  {
    if Usable(target) {
      var t := TargetTree(target);
      DecideMeans(links, directories, purge, src, t);
    }
  }

  /** Following a symbolic link stored at a top-level name and pointing at
      that same name never reaches an entry. */
  lemma {:induction false} SelfLinkDangles(t: Tree, f: Path, hops: nat)
    requires f in t && t[f] == Symlink(f) && Dirname(f) == ""
    ensures Resolve(t, f, hops).None?
    decreases hops
  {
    if hops > 0 {
      SelfLinkDangles(t, f, hops - 1);
    }
  }

  lemma {:induction false} DirnameWithoutSlash(p: Path)
    requires '/' !in p
    ensures Dirname(p) == ""
    decreases |p|
  {
    if |p| > 0 {
      assert p[..|p| - 1][..] == p[..|p| - 1];
      assert forall i :: 0 <= i < |p| - 1 ==> p[..|p| - 1][i] == p[i];
      DirnameWithoutSlash(p[..|p| - 1]);
    }
  }

  /** A certificate whose file name equals its own link name is never in
      sync: the link check needs a symbolic link stored under that name
      pointing at it, and such a link does not resolve to a regular file. */
  lemma SelfLinkNeverInSync(links: Mapping, directories: seq<Path>, purge: bool, src: Tree, target: Root, e: Link)
    requires e in links && e.file.Some? && Render(e.name) == e.file.value
    requires !IsAggregateName(e.file.value) && '/' !in e.file.value
    ensures SourceInSync(links, directories, purge, src, target) != Success(true)
  {
    if Usable(target) {
      var t := TargetTree(target);
      DecideMeans(links, directories, purge, src, t);
      var f := e.file.value;
      if f in t && t[f] == Symlink(f) {
        DirnameWithoutSlash(f);
        SelfLinkDangles(t, f, MaxSymlinkHops);
        assert !IsFile(t, f);
      }
    }
  }
}

=== FILE: text.dfy ===
/** The string operations of the Ruby core library that the providers rely on:
    `split` and `join` with a one-character separator, byte-wise ordering
    and sorting of path names, `Integer#to_s`, `String#to_i`,
    `sprintf("%08x")`, `include?` and the whitespace test of `strip`.
    Strings stand for Ruby byte strings, one character per byte. */
module Text {

  type Path = string

  // ---------------------------------------------------------------------
  // join and split
  // ---------------------------------------------------------------------

  /** Ruby `Array#join(sep)`: the parts with one separator between neighbours. */
  function Join(parts: seq<string>, sep: char): string
  {
    if |parts| == 0 then ""
    else if |parts| == 1 then parts[0]
    else parts[0] + [sep] + Join(parts[1..], sep)
  }

  /** Every field between separators, keeping empty leading, interior and
      trailing fields; joining the fields again gives back the input. */
  function SplitAll(s: string, sep: char): (r: seq<string>)
    ensures |r| >= 1
    ensures forall i :: 0 <= i < |r| ==> sep !in r[i]
    ensures Join(r, sep) == s
    decreases |s|
  {
    if |s| == 0 then [""]
    else
      var rest := SplitAll(s[1..], sep);
      if s[0] == sep then
        assert s == [sep] + s[1..];
        [""] + rest
      else
        var r := [[s[0]] + rest[0]] + rest[1..];
        assert r[1..] == rest[1..];
        assert s == [s[0]] + s[1..];
        r
  }

  /** The fields that remain once the empty fields at the end are dropped. */
  function DropTrailingEmpty(parts: seq<string>): (r: seq<string>)
    ensures r <= parts
    ensures |r| > 0 ==> r[|r| - 1] != ""
    ensures forall i :: |r| <= i < |parts| ==> parts[i] == ""
  {
    if |parts| == 0 then []
    else if parts[|parts| - 1] == "" then DropTrailingEmpty(parts[..|parts| - 1])
    else parts
  }

  /** Ruby `String#split(sep)` for a one-character separator other than a
      space: leading and interior empty fields are kept, trailing empty
      fields are dropped, so `"".split(sep)` is `[]`. */
  function RubySplit(s: string, sep: char): (r: seq<string>)
    ensures forall i :: 0 <= i < |r| ==> sep !in r[i]
    ensures |r| > 0 ==> r[|r| - 1] != ""
    ensures r <= SplitAll(s, sep)
    ensures forall i :: |r| <= i < |SplitAll(s, sep)| ==> SplitAll(s, sep)[i] == ""
  {
    DropTrailingEmpty(SplitAll(s, sep))
  }

  lemma {:induction false} SplitSingleField(a: string, sep: char)
    requires sep !in a
    ensures SplitAll(a, sep) == [a]
    decreases |a|
  {
    if |a| > 0 {
      SplitSingleField(a[1..], sep);
      assert a == [a[0]] + a[1..];
    }
  }

  lemma {:induction false} SplitAfterField(a: string, t: string, sep: char)
    requires sep !in a
    ensures SplitAll(a + [sep] + t, sep) == [a] + SplitAll(t, sep)
    decreases |a|
  {
    var s := a + [sep] + t;
    if |a| == 0 {
      assert s[1..] == t;
    } else {
      assert s[1..] == a[1..] + [sep] + t;
      SplitAfterField(a[1..], t, sep);
      assert [a[0]] + a[1..] == a;
    }
  }

  /** Joining fields that hold no separator and then splitting gives the
      fields back, with one empty field for a separator added at the end. */
  lemma {:induction false} SplitJoinTerminated(parts: seq<string>, sep: char)
    requires |parts| >= 1
    requires forall i :: 0 <= i < |parts| ==> sep !in parts[i]
    ensures SplitAll(Join(parts, sep) + [sep], sep) == parts + [""]
    decreases |parts|
  {
    if |parts| == 1 {
      SplitAfterField(parts[0], "", sep);
      assert parts[0] + [sep] + "" == Join(parts, sep) + [sep];
    } else {
      var rest := parts[1..];
      SplitJoinTerminated(rest, sep);
      assert Join(parts, sep) + [sep] == parts[0] + [sep] + (Join(rest, sep) + [sep]);
      SplitAfterField(parts[0], Join(rest, sep) + [sep], sep);
      assert [parts[0]] + (rest + [""]) == parts + [""];
    }
  }

  /** `split` undoes `join` followed by a newline-style terminator when the
      last field is not empty. */
  lemma RubySplitOfTerminatedJoin(parts: seq<string>, sep: char)
    requires forall i :: 0 <= i < |parts| ==> sep !in parts[i]
    requires |parts| > 0 ==> parts[|parts| - 1] != ""
    ensures RubySplit(Join(parts, sep) + [sep], sep) == parts
  {
    if |parts| == 0 {
      assert SplitAll([sep], sep) == ["", ""] by {
        SplitAfterField("", "", sep);
        assert "" + [sep] + "" == [sep];
      }
    } else {
      SplitJoinTerminated(parts, sep);
      var all := parts + [""];
      assert all[..|all| - 1] == parts;
    }
  }

  /** Ruby string concatenation of a list, in order. */
  function Concat(parts: seq<string>): string
  {
    if |parts| == 0 then "" else parts[0] + Concat(parts[1..])
  }

  function Repeat(c: char, n: nat): (r: string)
    ensures |r| == n
    ensures forall i :: 0 <= i < n ==> r[i] == c
  {
    if n == 0 then "" else [c] + Repeat(c, n - 1)
  }

  // ---------------------------------------------------------------------
  // byte-wise ordering and sorting
  // ---------------------------------------------------------------------

  /** Ruby `String#<=>` read as "less than or equal": compares byte by byte,
      and a proper prefix comes first. */
  predicate LexLe(a: string, b: string)
    decreases |a|
  {
    |a| == 0 || (|b| > 0 && (a[0] < b[0] || (a[0] == b[0] && LexLe(a[1..], b[1..]))))
  }

  predicate LexLt(a: string, b: string)
  {
    LexLe(a, b) && a != b
  }

  lemma {:induction false} LexLeReflexive(a: string)
    ensures LexLe(a, a)
    decreases |a|
  {
    if |a| > 0 {
      LexLeReflexive(a[1..]);
    }
  }

  lemma {:induction false} LexLeTotal(a: string, b: string)
    ensures LexLe(a, b) || LexLe(b, a)
    decreases |a|
  {
    if |a| > 0 && |b| > 0 && a[0] == b[0] {
      LexLeTotal(a[1..], b[1..]);
    }
  }

  lemma {:induction false} LexLeAntisymmetric(a: string, b: string)
    requires LexLe(a, b) && LexLe(b, a)
    ensures a == b
    decreases |a|
  {
    if |a| > 0 {
      LexLeAntisymmetric(a[1..], b[1..]);
      assert a == [a[0]] + a[1..] && b == [b[0]] + b[1..];
    }
  }

  lemma {:induction false} LexLeTransitive(a: string, b: string, c: string)
    requires LexLe(a, b) && LexLe(b, c)
    ensures LexLe(a, c)
    decreases |a|
  {
    if |a| > 0 && a[0] == b[0] && b[0] == c[0] {
      LexLeTransitive(a[1..], b[1..], c[1..]);
    }
  }

  predicate StrictlySorted(s: seq<string>)
  {
    forall i, j :: 0 <= i < j < |s| ==> LexLt(s[i], s[j])
  }

  predicate IsLeast(m: string, s: set<string>)
  {
    m in s && forall q :: q in s ==> LexLe(m, q)
  }

  lemma {:induction false} LeastExists(s: set<string>)
    requires s != {}
    ensures exists m :: IsLeast(m, s)
    decreases |s|
  {
    var x :| x in s;
    if s != {x} {
      LeastExists(s - {x});
      var m :| IsLeast(m, s - {x});
      LexLeTotal(m, x);
      if LexLe(m, x) {
        assert IsLeast(m, s);
      } else {
        assert LexLe(x, m);
        forall q | q in s
          ensures LexLe(x, q)
        {
          if q != x {
            assert q in s - {x};
            LexLeTransitive(x, m, q);
          } else {
            LexLeReflexive(x);
          }
        }
        assert IsLeast(x, s);
      }
    } else {
      LexLeReflexive(x);
      assert IsLeast(x, s);
    }
  }

  lemma LeastUnique(s: set<string>)
    ensures forall m, n :: IsLeast(m, s) && IsLeast(n, s) ==> m == n
  {
    forall m, n | IsLeast(m, s) && IsLeast(n, s)
      ensures m == n
    {
      LexLeAntisymmetric(m, n);
    }
  }

  /** The members of a set of path names in ascending byte order: Ruby
      `Array#sort` applied to a list without repetitions. */
  function SortedPaths(s: set<string>): (r: seq<string>)
    ensures StrictlySorted(r)
    ensures forall p :: p in r <==> p in s
    ensures |r| == |s|
    decreases |s|
  {
    if s == {} then []
    else
      LeastExists(s);
      LeastUnique(s);
      var m :| IsLeast(m, s);
      var rest := SortedPaths(s - {m});
      assert forall j :: 0 <= j < |rest| ==> rest[j] in s - {m};
      assert forall j :: 0 <= j < |rest| ==> LexLt(m, rest[j]);
      [m] + rest
  }

  /** The elements of `s` that satisfy `keep`, in their original order. */
  function Filter<T(!new)>(s: seq<T>, keep: T -> bool): (r: seq<T>)
    ensures forall x :: x in r <==> x in s && keep(x)
    ensures |r| <= |s|
  {
    if |s| == 0 then []
    else if keep(s[0]) then [s[0]] + Filter(s[1..], keep)
    else Filter(s[1..], keep)
  }

  lemma {:induction false} FilterKeepsOrder(s: seq<string>, keep: string -> bool)
    requires StrictlySorted(s)
    ensures StrictlySorted(Filter(s, keep))
    decreases |s|
  {
    if |s| > 0 {
      FilterKeepsOrder(s[1..], keep);
      var rest := Filter(s[1..], keep);
      forall j | 0 <= j < |rest|
        ensures LexLt(s[0], rest[j])
      {
        assert rest[j] in s[1..];
      }
    }
  }

  // ---------------------------------------------------------------------
  // numbers as text
  // ---------------------------------------------------------------------

  predicate IsDigit(c: char)
  {
    '0' <= c <= '9'
  }

  predicate IsHexDigit(c: char)
  {
    IsDigit(c) || 'a' <= c <= 'f'
  }

  function DigitChar(d: nat): (c: char)
    requires d < 10
    ensures IsDigit(c)
  {
    (48 + d) as char
  }

  function DigitValue(c: char): nat
    requires IsDigit(c)
  {
    c as int - 48
  }

  function HexChar(d: nat): (c: char)
    requires d < 16
    ensures IsHexDigit(c)
  {
    if d < 10 then DigitChar(d) else (87 + d) as char
  }

  function HexValue(c: char): nat
    requires IsHexDigit(c)
  {
    if IsDigit(c) then DigitValue(c) else c as int - 87
  }

  /** Ruby `Integer#to_s` for a non-negative integer: decimal, no leading zeros. */
  function Decimal(n: nat): (r: string)
    ensures |r| >= 1
    ensures forall i :: 0 <= i < |r| ==> IsDigit(r[i])
  {
    if n < 10 then [DigitChar(n)] else Decimal(n / 10) + [DigitChar(n % 10)]
  }

  /** The space characters `String#to_i` skips before the number. */
  predicate IsSpace(c: char)
  {
    c == ' ' || 9 <= c as int <= 13
  }

  function SkipSpaces(s: string): (r: string)
    ensures |r| > 0 ==> !IsSpace(r[0])
  {
    if |s| > 0 && IsSpace(s[0]) then SkipSpaces(s[1..]) else s
  }

  /** The value of the digits at the head of `s`, continuing the number
      `acc`; a single underscore between two digits is skipped, as Ruby allows. */
  function DigitRun(s: string, acc: nat): nat
  {
    if |s| > 0 && IsDigit(s[0]) then DigitRun(s[1..], acc * 10 + DigitValue(s[0]))
    else if |s| > 1 && s[0] == '_' && IsDigit(s[1]) then DigitRun(s[1..], acc)
    else acc
  }

  function Magnitude(s: string): nat
  {
    if |s| > 0 && IsDigit(s[0]) then DigitRun(s, 0) else 0
  }

  /** The optional `0d` or `0D` radix prefix a base-10 `String#to_i`
      skips after the sign. */
  function Unprefixed(s: string): (r: string)
    ensures |s| >= 2 && s[0] == '0' && (s[1] == 'd' || s[1] == 'D') ==> r == s[2..]
    ensures !(|s| >= 2 && s[0] == '0' && (s[1] == 'd' || s[1] == 'D')) ==> r == s
  {
    if |s| >= 2 && s[0] == '0' && (s[1] == 'd' || s[1] == 'D') then s[2..] else s
  }

  /** Ruby `String#to_i`: leading spaces, an optional sign, an optional
      `0d` prefix, then as many digits as there are; no digits at all reads
      as 0. */
  function ToI(s: string): int
  {
    var t := SkipSpaces(s);
    if |t| > 0 && t[0] == '-' then -(Magnitude(Unprefixed(t[1..])) as int)
    else if |t| > 0 && t[0] == '+' then Magnitude(Unprefixed(t[1..]))
    else Magnitude(Unprefixed(t))
  }

  lemma {:induction false} DigitRunSnoc(s: string, d: char, acc: nat)
    requires forall i :: 0 <= i < |s| ==> IsDigit(s[i])
    requires IsDigit(d)
    ensures DigitRun(s + [d], acc) == DigitRun(s, acc) * 10 + DigitValue(d)
    decreases |s|
  {
    if |s| == 0 {
      assert (s + [d])[1..] == "";
    } else {
      assert (s + [d])[1..] == s[1..] + [d];
      DigitRunSnoc(s[1..], d, acc * 10 + DigitValue(s[0]));
    }
  }

  /** `Integer#to_s` and `String#to_i` are inverse on non-negative integers. */
  lemma {:induction false} ToIOfDecimal(n: nat)
    ensures ToI(Decimal(n)) == n
    ensures DigitRun(Decimal(n), 0) == n
    decreases n
  {
    var r := Decimal(n);
    assert |r| > 0 && !IsSpace(r[0]) && r[0] != '-' && r[0] != '+';
    assert SkipSpaces(r) == r;
    if n >= 10 {
      ToIOfDecimal(n / 10);
      DigitRunSnoc(Decimal(n / 10), DigitChar(n % 10), 0);
      assert DigitRun(r, 0) == (n / 10) * 10 + n % 10;
    } else {
      assert r[1..] == "";
      assert DigitValue(r[0]) == n;
      assert DigitRun(r, 0) == DigitRun(r[1..], DigitValue(r[0]));
    }
    assert Unprefixed(r) == r by {
      if |r| >= 2 { assert IsDigit(r[1]); }
    }
    assert ToI(r) == Magnitude(r) == DigitRun(r, 0);
  }

  /** A `0d` prefix is skipped: `"0d" + n.to_s` reads back as `n`. */
  lemma ToIOfPrefixedDecimal(n: nat)
    ensures ToI("0d" + Decimal(n)) == n
    ensures ToI("0D" + Decimal(n)) == n
  {
    ToIOfDecimal(n);
    var r := Decimal(n);
    assert SkipSpaces("0d" + r) == "0d" + r;
    assert SkipSpaces("0D" + r) == "0D" + r;
    assert ("0d" + r)[2..] == r;
    assert ("0D" + r)[2..] == r;
    assert r[0] != '-' && r[0] != '+';
    assert ToI(r) == Magnitude(r);
  }

  lemma DecimalInjective(a: nat, b: nat)
    requires Decimal(a) == Decimal(b)
    ensures a == b
  {
    ToIOfDecimal(a);
    ToIOfDecimal(b);
  }

  /** The hexadecimal digits of `n`, with no leading zero unless `n` is 0. */
  function HexDigits(n: nat): (r: string)
    ensures |r| >= 1
    ensures forall i :: 0 <= i < |r| ==> IsHexDigit(r[i])
    ensures r[0] == '0' <==> n == 0
  {
    if n < 16 then [HexChar(n)] else HexDigits(n / 16) + [HexChar(n % 16)]
  }

  function Pow16(k: nat): (r: nat)
    ensures r >= 1
  {
    if k == 0 then 1 else 16 * Pow16(k - 1)
  }

  /** A number below `16^k` takes at most `k` hexadecimal digits. */
  lemma {:induction false} HexDigitsWithin(n: nat, k: nat)
    requires 1 <= k && n < Pow16(k)
    ensures |HexDigits(n)| <= k
    decreases k
  {
    if n >= 16 {
      assert k >= 2;
      assert n / 16 < Pow16(k - 1);
      HexDigitsWithin(n / 16, k - 1);
    }
  }

  /** The value of a string of lowercase hexadecimal digits. */
  function HexNumber(s: string): nat
    requires forall i :: 0 <= i < |s| ==> IsHexDigit(s[i])
  {
    if |s| == 0 then 0 else HexNumber(s[..|s| - 1]) * 16 + HexValue(s[|s| - 1])
  }

  lemma {:induction false} HexNumberOfDigits(n: nat)
    ensures HexNumber(HexDigits(n)) == n
    decreases n
  {
    var r := HexDigits(n);
    if n >= 16 {
      HexNumberOfDigits(n / 16);
      assert r[..|r| - 1] == HexDigits(n / 16);
    }
  }

  lemma {:induction false} HexNumberLeadingZeros(k: nat, s: string)
    requires forall i :: 0 <= i < |s| ==> IsHexDigit(s[i])
    ensures HexNumber(Repeat('0', k) + s) == HexNumber(s)
    decreases |s|
  {
    var t := Repeat('0', k) + s;
    if |s| == 0 {
      HexNumberOfZeros(k);
      assert t == Repeat('0', k);
    } else {
      assert t[..|t| - 1] == Repeat('0', k) + s[..|s| - 1];
      HexNumberLeadingZeros(k, s[..|s| - 1]);
    }
  }

  lemma {:induction false} HexNumberOfZeros(k: nat)
    ensures HexNumber(Repeat('0', k)) == 0
    decreases k
  {
    if k > 0 {
      var z := Repeat('0', k);
      assert z[..k - 1] == Repeat('0', k - 1);
      HexNumberOfZeros(k - 1);
    }
  }

  /** Ruby `sprintf("%08x", n)`: lowercase hexadecimal, zero-padded to
      exactly eight digits below `16^8`, and with no leading zero when
      longer; reading the digits back gives `n`. */
  function Format08x(n: nat): (r: string)
    ensures |r| >= 8
    ensures n < 0x1_0000_0000 ==> |r| == 8
    ensures |r| > 8 ==> r[0] != '0'
    ensures forall i :: 0 <= i < |r| ==> IsHexDigit(r[i])
    ensures HexNumber(r) == n
  {
    var d := HexDigits(n);
    HexNumberOfDigits(n);
    assert n < 0x1_0000_0000 ==> |d| <= 8 by {
      if n < 0x1_0000_0000 {
        assert Pow16(8) == 0x1_0000_0000;
        HexDigitsWithin(n, 8);
      }
    }
    if |d| >= 8 then d
    else
      HexNumberLeadingZeros(8 - |d|, d);
      Repeat('0', 8 - |d|) + d
  }

  // ---------------------------------------------------------------------
  // searching
  // ---------------------------------------------------------------------

  /** Ruby `s.include?(p)`: `p` occurs somewhere in `s`. */
  predicate Contains(s: string, p: string)
    decreases |s|
  {
    p <= s || (|s| > 0 && Contains(s[1..], p))
  }

  predicate OccursAt(s: string, p: string, i: int)
  {
    0 <= i <= |s| - |p| && s[i..i + |p|] == p
  }

  /** A prefix of a substring is a substring. */
  lemma {:induction false} ContainsPrefix(s: string, p: string, q: string)
    requires q <= p && Contains(s, p)
    ensures Contains(s, q)
    decreases |s|
  {
    if !(p <= s) {
      ContainsPrefix(s[1..], p, q);
    }
  }

  /** The scan of `Contains` finds `p` exactly when `p` occurs at some offset. */
  lemma {:induction false} ContainsSpec(s: string, p: string)
    ensures Contains(s, p) <==> exists i :: OccursAt(s, p, i)
    decreases |s|
  {
    if p <= s {
      assert OccursAt(s, p, 0);
    } else if |s| > 0 {
      ContainsSpec(s[1..], p);
      if exists i :: OccursAt(s, p, i) {
        var i :| OccursAt(s, p, i);
        assert i != 0;
        assert OccursAt(s[1..], p, i - 1);
      }
      if Contains(s[1..], p) {
        var i :| OccursAt(s[1..], p, i);
        assert OccursAt(s, p, i + 1);
      }
    }
  }

  /** The characters `String#strip` removes: NUL and ASCII white space. */
  predicate IsStripSpace(c: char)
  {
    c as int == 0 || IsSpace(c)
  }

  /** Ruby `s.strip.empty?`: nothing but NUL and white space. */
  predicate BlankAfterStrip(s: string)
  {
    forall i :: 0 <= i < |s| ==> IsStripSpace(s[i])
  }

  /** Ruby `String#lstrip`: leading NUL and white space removed. */
  function LeftStrip(s: string): (r: string)
    ensures |r| <= |s| && r == s[|s| - |r|..]
    ensures |r| > 0 ==> !IsStripSpace(r[0])
  {
    if |s| > 0 && IsStripSpace(s[0]) then LeftStrip(s[1..]) else s
  }

  /** Ruby `String#rstrip`: trailing NUL and white space removed. */
  function RightStrip(s: string): (r: string)
    ensures |r| <= |s| && r == s[..|r|]
    ensures |r| > 0 ==> !IsStripSpace(r[|r| - 1])
  {
    if |s| > 0 && IsStripSpace(s[|s| - 1]) then RightStrip(s[..|s| - 1]) else s
  }

  /** Ruby `String#strip`. */
  function RubyStrip(s: string): string
  {
    LeftStrip(RightStrip(s))
  }

  lemma {:induction false} RightStripEmpty(s: string)
    ensures RightStrip(s) == "" <==> BlankAfterStrip(s)
    decreases |s|
  {
    if |s| > 0 && IsStripSpace(s[|s| - 1]) {
      RightStripEmpty(s[..|s| - 1]);
      assert forall i :: 0 <= i < |s| - 1 ==> s[..|s| - 1][i] == s[i];
    } else if |s| > 0 {
      assert !IsStripSpace(s[|s| - 1]);
    }
  }

  lemma {:induction false} LeftStripEmpty(s: string)
    ensures LeftStrip(s) == "" <==> BlankAfterStrip(s)
    decreases |s|
  {
    if |s| > 0 && IsStripSpace(s[0]) {
      LeftStripEmpty(s[1..]);
      assert forall i :: 1 <= i < |s| ==> s[1..][i - 1] == s[i];
    } else if |s| > 0 {
      assert !IsStripSpace(s[0]);
    }
  }

  /** `s.strip` is empty exactly when `s` holds only NUL and white space. */
  lemma StripEmptyIffBlank(s: string)
    ensures RubyStrip(s) == "" <==> BlankAfterStrip(s)
  {
    RightStripEmpty(s);
    var r := RightStrip(s);
    LeftStripEmpty(r);
  }
}

=== FILE: wrappers.dfy ===
/** Option and Result for the model's error paths: a Ruby `nil` becomes `None`,
    a raised exception becomes a `Failure` naming what the program raises. */
module Wrappers {

  datatype Option<+T> = None | Some(value: T)

  datatype Result<+R, +E> = Success(value: R) | Failure(error: E) {
    predicate IsFailure() {
      Failure?
    }

    function PropagateFailure<U>(): Result<U, E>
      requires Failure?
    {
      Failure(error)
    }

    function Extract(): R
      requires Success?
    {
      value
    }
  }
}
